=== FILE: README.md ===
# Certification tracker — a Dafny model of its core logic

The certification tracker keeps a cache of user profiles. Each profile has
an email, a role, a search string and a list of certifications. Around that
cache it offers:

- a backend that validates and stores profile writes against a registry of
  mandatory certifications per role;
- a backend pass that refreshes every cached user from an external
  certification service;
- a backend bulk CSV import with a per-row error report;
- a frontend that flattens the profiles into one row per certification and
  filters, counts, ranks and sorts those rows (dashboard, statistics,
  advanced reports, compliance report, certification table, self-service
  form).

This project states that logic as pure Dafny functions over immutable
records and proves what each step promises. The cache is a
`seq<UserProfile>` passed in and returned. A few things become explicit
parameters:

- the external fetch is a function `(searchString, role) -> Option<FetchResult>`;
- the clock is one `now` string;
- the host's date parsing and formatting is a `Calendar` value, whose
  `parse`, `time` and `format` fields are arbitrary functions; `""` and
  `"N/A"` never parse.

JavaScript's missing values and `||` fall-backs are modelled with the empty
string and `Records.OrElse`. `Array.prototype.sort` is modelled by a stable
insertion sort, `Sorting.SortBy`. Every sort is proved to be a permutation
and, where the comparator is a total preorder on the values met, to leave
the rows ordered.

Modules, following the program's structure:

| module | what it holds |
|---|---|
| `Wrappers`, `Records` | Option/Result; certification, profile and flat-row records; the `Calendar` |
| `Strings`, `Seqs`, `Sorting` | `trim`, `split`, `includes`, `toLowerCase`, `<` on strings; `filter`, `flatMap`, `slice`; `sort` |
| `Grouping` | counting by key, distinct keys, top-N by count |
| `Registry`, `Cache`, `Sync`, `CsvImport` | the backend: role requirements, the profile write, the refresh pass, the CSV import |
| `Dashboard`, `Stats`, `Reports` | flattening, dashboard filters (current and legacy), statistics overview, advanced reports |
| `Ordering`, `Compliance`, `UserTable`, `SelfService` | sort clicks, the compliance report, the certification table, self-service list edits |
| `Scenarios` | small worked inputs and the outcomes the model gives for them |

The CSV import decides whether a row is accepted from the raw split fields,
before trimming. A row whose email is only blanks is therefore accepted and
stored under the empty email, since trimming happens only after the test
(backend/server.mjs:152-157). `Scenarios.BlankEmailAccepted` shows the
consequence.

## Model

| member | source | states |
|---|---|---|
| Registry.RegistryWellFormed | backend/server.mjs:22-28 | every role in the registry requires at least one certification, and its names are listed without repetition |
| Registry.RequirementsFor | backend/server.mjs:94 | a role's requirements are its registry entry; a role with no entry requires nothing |
| Registry.Missing | backend/server.mjs:96 | the missing list keeps the registry order (a subsequence of the requirements) and holds exactly the required names absent from the supplied ones; it is empty iff every requirement is supplied |
| Cache.Emails | backend/server.mjs:101 | one email per cache entry, position by position |
| Cache.FindIndex | backend/server.mjs:101 | the index found is the first entry with that email; no index iff no entry has that email |
| Cache.FindIndexAt | backend/server.mjs:101 | the first entry carrying the email is the one `findIndex` reports |
| Cache.Upsert | backend/server.mjs:109-113 | an existing email is replaced in place (length unchanged), a new one is appended at the end; the entry is then found under its email and every other entry keeps its position and value |
| Cache.UpsertKeepsUnique | backend/server.mjs:101-113 | storing an entry keeps emails unique |
| Cache.UpsertIdempotent | backend/server.mjs:101-113 | storing the same entry twice is storing it once |
| Cache.UpsertOverwrite | backend/server.mjs:101-113 | a second write for the same email fully supersedes the first |
| Cache.CertNames | backend/server.mjs:95 | one name per supplied certification, in order |
| Cache.PutUser | backend/server.mjs:88-113 | no email or no role: refused and the cache untouched; otherwise refused iff some required name is not supplied, reporting exactly the missing names, cache untouched; on success the stored entry has the request's email, role and certifications, the clock reading, the supplied search string else the prior entry's else "", and is upserted by email |
| Cache.PutUserKeepsUnique | backend/server.mjs:100-113 | a write, accepted or refused, keeps emails unique |
| Cache.PutUserRepeat | backend/server.mjs:88-113 | repeating an accepted write succeeds again, stores the same profile with only the time stamp changed, and leaves the cache as if the second write alone had been made |
| Cache.UnknownRoleAcceptsEmptyList | backend/server.mjs:94-97 | a role without a registry entry accepts a write with no certifications |
| Sync.ToCertRecord | backend/server.mjs:66-73 | provider Salesforce, status active, no expiry; the type name, date and type are carried over when present, and a missing type name or date becomes "", a missing type an empty meta |
| Sync.MapCerts | backend/server.mjs:64-74 | a record without certification records yields none; otherwise one certification per source record, in order |
| Sync.FetchedCerts | backend/server.mjs:126-131 | a failed fetch or one with no first data item yields no certifications; otherwise the first item's records mapped |
| Sync.RefreshUser | backend/server.mjs:127-132 | a refreshed user keeps email, role, search string and other fields, takes the fetched certifications and the new time stamp |
| Sync.Refresh | backend/server.mjs:123-133 | same length and user order; each entry is its user refreshed |
| Sync.FailedFetchClears | backend/server.mjs:130-131 | a user whose fetch fails ends with no certifications |
| Sync.RefreshKeepsUsers | backend/server.mjs:123-133 | the emails and their order are unchanged, so unique emails stay unique |
| Sync.RefreshIdempotent | backend/server.mjs:123-133 | refreshing twice with the same fetch and clock gives the same cache as refreshing once |
| CsvImport.DataLines | backend/server.mjs:145 | the data lines are the lines of the trimmed content after the header: preceded by one header line and joined with line breaks they give back the trimmed content; as many as its line breaks, none holding a line break |
| CsvImport.Field | backend/server.mjs:152 | a field of a line holds no comma |
| CsvImport.ImportLine | backend/server.mjs:152-166 | a rejected line leaves the cache unchanged; an accepted one stores the trimmed email, role and search string with no certifications and no time stamp, overwriting the same-email entry (keeping its other fields) or appending |
| CsvImport.ImportNothingAccepted | backend/server.mjs:150-171 | when no line is accepted the cache is unchanged |
| CsvImport.Report | backend/server.mjs:146-170 | processed is the number of data lines, success the number of accepted lines, and success plus the number of errors equals processed |
| CsvImport.ReportErrors | backend/server.mjs:150-170 | every error names a rejected line, with row = its index after the header + 2; the rows ascend; every rejected line has its error |
| CsvImport.ImportLines | backend/server.mjs:146-170 | the report of a batch of lines accounts for every line |
| CsvImport.ImportCsv | backend/server.mjs:145-170 | processed equals the number of line breaks in the trimmed content, and every processed line is a success or an error |
| CsvImport.ImportSequential | backend/server.mjs:150-166 | importing two batches in one file is importing the first, then the second on its result |
| CsvImport.ImportKeepsUnique | backend/server.mjs:161-166 | importing keeps cache emails unique |
| Strings.Trim | backend/server.mjs:145 | `trim` removes only leading and trailing white space and leaves none at either end |
| Strings.TrimComposes | backend/server.mjs:155-157 | trimming the start then the end is a strip of white space at both ends |
| Strings.Split | backend/server.mjs:152 | splitting gives one more piece than there are separators, and no piece holds the separator |
| Strings.JoinSplit | backend/server.mjs:152 | joining the pieces of a split with the separator gives the text back |
| Strings.SplitJoin | backend/server.mjs:152 | splitting separator-free pieces joined by the separator gives the pieces back |
| Strings.Includes | frontend/src/App.js:114-115 | `includes` holds iff the needle occurs at some position |
| Strings.ToLower | frontend/src/App.js:114-115 | lower-casing keeps the length and maps each character on its own |
| Strings.ToLowerIdempotent | frontend/src/App.js:114-115 | lower-casing twice is lower-casing once |
| Strings.LessTransitive | frontend/src/components/CertFilterPanel.jsx:4 | string order is transitive |
| Strings.LessTotal | frontend/src/components/CertFilterPanel.jsx:4 | any two distinct strings are ordered one way or the other |
| Sorting.SortBy | frontend/src/components/UserTable.jsx:10 | sorting only permutes the rows |
| Sorting.SortByAgrees | frontend/src/components/ComplianceReport.jsx:109 | two comparators that agree on the rows sort them identically |
| Sorting.OrdersTransfer | frontend/src/components/ComplianceReport.jsx:109 | a comparator agreeing on the rows with a total, transitive one is itself total and transitive there |
| Sorting.SortByIsSorted | frontend/src/components/UserTable.jsx:10 | with a comparator that is total and transitive on the rows, every row may precede every later one |
| Dashboard.FlatOf | frontend/src/App.js:96-106 | a flat row takes the certification's name and date and the user's email, falling back to "N/A" exactly when each is empty; name and address fields are "N/A"; userId and role are copied from the user |
| Dashboard.Rows | frontend/src/App.js:96 | one row per certification of the user, in order |
| Dashboard.CertTotalIsSumOfRows | frontend/src/App.js:94-96 | the flattened length is the sum of the users' certification counts |
| Dashboard.AllCertsLayout | frontend/src/App.js:94-107 | the rows come user by user, then certification by certification: certification j of user k sits after all rows of the earlier users |
| Dashboard.MatchesDate | frontend/src/App.js:120-136 | a row without a date, or no month and no year, passes; otherwise the row passes iff it matches the given month (1-based) and/or year |
| Dashboard.FilterCerts | frontend/src/App.js:111-138 | the filtered rows are a subsequence of the rows and all match the filters |
| Dashboard.FilterCertsExact | frontend/src/App.js:111-138 | a row is kept iff it is among the rows and matches search, name and date |
| Dashboard.NoFiltersKeepAll | frontend/src/App.js:113-121 | with every filter empty, every row is kept in order |
| Dashboard.SearchIgnoresCase | frontend/src/App.js:113-115 | searching for a text or its lower-case form selects the same rows |
| Dashboard.ApplyPatch | frontend/src/App.js:88-90 | a filter change overwrites exactly the supplied fields and keeps the others |
| Dashboard.PatchesCompose | frontend/src/components/Dashboard.jsx:15-17 | two filter changes in a row are one merged change, and repeating a change changes nothing |
| Dashboard.LegacyRow | frontend/src/components/Dashboard.jsx:21-29 | a legacy row copies email, name and address from the user and the certification name and date from the record |
| Dashboard.LegacyRows | frontend/src/components/Dashboard.jsx:20-29 | a user without certification records gives no rows; otherwise one row per record, in order |
| Dashboard.LegacyLayout | frontend/src/components/Dashboard.jsx:19-31 | record j of user k sits after all rows of the earlier users |
| Dashboard.LegacyFilter | frontend/src/components/Dashboard.jsx:34-45 | the legacy filter keeps a subsequence of the rows, all matching it |
| Dashboard.LegacyFilterExact | frontend/src/components/Dashboard.jsx:34-45 | a row is kept by the legacy filter iff it is among the rows and matches |
| Dashboard.YearOnlyFilterDiffers | frontend/src/components/Dashboard.jsx:40-42 | with only a year given the legacy filter keeps nothing, while the current filter keeps rows of that year |
| Stats.CertNames | frontend/src/components/StatsOverview.jsx:9 | one name per row, in order |
| Stats.OverviewOf | frontend/src/components/StatsOverview.jsx:5-20 | the total is the row count; chart names are distinct, each with its number of occurrences, and the counts sum to the total |
| Stats.OverviewCovers | frontend/src/components/StatsOverview.jsx:8-11 | every row's name has a chart entry |
| Stats.OverviewKeysOccur | frontend/src/components/StatsOverview.jsx:8-11 | every chart name is some row's name |
| Stats.PanelNames | frontend/src/components/CertFilterPanel.jsx:4 | the names are exactly the rows' names, strictly ascending and so without repetition, no more than the rows, and none for no rows |
| Grouping.Dedup | frontend/src/components/CertFilterPanel.jsx:4 | the distinct keys hold the same elements, each once, in the order of their first occurrences (as a `Set` or an object's string keys list them) |
| Grouping.TallyOf | frontend/src/components/StatsOverview.jsx:8-11 | one entry per distinct key, each counting the key's occurrences |
| Grouping.TallyFirstSeen | frontend/src/components/StatsOverview.jsx:8-20 | the entries come in the order their keys first occur, the order `Object.entries` lists them in, which breaks count ties in the stable sorts of the top lists |
| Grouping.TallyTotal | frontend/src/components/StatsOverview.jsx:8-11 | the counts of a tally sum to the number of keys counted |
| Grouping.TallyKeys | frontend/src/components/StatsOverview.jsx:8-11 | tally keys are distinct, are exactly the counted keys, and each count is positive |
| Grouping.TopN | frontend/src/components/AdvancedReports.jsx:34-35 | at most n entries (exactly n when there are that many), drawn from the input |
| Grouping.TopNOrdered | frontend/src/components/AdvancedReports.jsx:34-35 | the kept entries come by non-increasing count, and none left out has a larger count than a kept one |
| Grouping.DistinctSorted | frontend/src/components/ComplianceReport.jsx:46-50 | the same set of names, strictly ascending |
| Grouping.CompareStrings | frontend/src/components/ComplianceReport.jsx:49 | the default string comparison is negative, zero or positive exactly as the strings are ordered |
| Reports.Years | frontend/src/components/AdvancedReports.jsx:10-16 | one year per dated row, and a year is listed iff some row is dated in it |
| Reports.YearsCount | frontend/src/components/AdvancedReports.jsx:10-16 | each year occurs in the list of years once per row dated in it |
| Reports.YearsCountDated | frontend/src/components/AdvancedReports.jsx:11 | there are as many years as dated rows |
| Reports.CertsByYear | frontend/src/components/AdvancedReports.jsx:9-21 | the entries are a rearrangement of the tally of years |
| Reports.CertsByYearAscending | frontend/src/components/AdvancedReports.jsx:18-20 | years are listed once each, strictly ascending |
| Reports.CertsByYearCounts | frontend/src/components/AdvancedReports.jsx:10-16 | each year counts exactly the rows dated in it (stated as the size of the filter of the rows by that year), and every year with a dated row is listed |
| Reports.CertsByYearTotal | frontend/src/components/AdvancedReports.jsx:9-21 | the counts sum to the number of dated rows |
| Reports.CountedNames | frontend/src/components/AdvancedReports.jsx:26 | "N/A" and empty names are left out |
| Reports.CountedNamesCount | frontend/src/components/AdvancedReports.jsx:25-30 | a counted name occurs as often as the rows carry it |
| Reports.TopCerts | frontend/src/components/AdvancedReports.jsx:24-36 | at most five entries, drawn from the name tally |
| Reports.TopCertsCounts | frontend/src/components/AdvancedReports.jsx:24-36 | names are distinct, never "N/A" or empty, and each carries its number of rows |
| Reports.TopCertsOrdered | frontend/src/components/AdvancedReports.jsx:32-35 | counts do not increase, and no name left out is more frequent than a listed one |
| Reports.MonthBuckets | frontend/src/components/AdvancedReports.jsx:39-52 | exactly twelve buckets, bucket m counting the rows of the year in month m |
| Reports.MonthBucketsTotal | frontend/src/components/AdvancedReports.jsx:42-50 | the buckets sum to the number of rows dated in the year |
| Reports.FirstRow | frontend/src/components/AdvancedReports.jsx:58 | the first row carrying an email, if any |
| Reports.PersonOf | frontend/src/components/AdvancedReports.jsx:58-59 | a person entry carries the email and count it was built for |
| Reports.PersonsCounts | frontend/src/components/AdvancedReports.jsx:56-61 | emails are listed once each, each with its number of rows |
| Reports.PersonsNamed | frontend/src/components/AdvancedReports.jsx:58 | a person's name is taken from the first row of their email |
| Reports.PersonsCover | frontend/src/components/AdvancedReports.jsx:56-61 | every email among the rows has its person |
| Reports.TopPersons | frontend/src/components/AdvancedReports.jsx:63-65 | at most ten persons, drawn from the tally |
| Reports.TopPersonsCounts | frontend/src/components/AdvancedReports.jsx:55-66 | each listed person carries the number of rows of their email |
| Reports.TopPersonsDistinct | frontend/src/components/AdvancedReports.jsx:55-66 | no email is listed twice |
| Reports.TopPersonsOrdered | frontend/src/components/AdvancedReports.jsx:63-65 | counts do not increase, and nobody left out has more rows than someone listed |
| Reports.TopPersonsOverall | frontend/src/components/AdvancedReports.jsx:55-66 | at most ten persons overall |
| Reports.TopPersonsByYear | frontend/src/components/AdvancedReports.jsx:69-84 | at most ten persons for the year |
| Reports.TopPersonsByYearCounts | frontend/src/components/AdvancedReports.jsx:69-84 | each count is the person's rows in the year, and never more than their rows overall |
| Reports.KeptCountAtMost | frontend/src/components/AdvancedReports.jsx:70-72 | filtering rows never raises how often an email occurs |
| Ordering.RequestSort | frontend/src/components/ComplianceReport.jsx:209-215 | the clicked column becomes the key; the direction is descending iff that column was already the key and ascending |
| Ordering.RequestSortToggles | frontend/src/components/UserTable.jsx:50-56 | a second click on a column flips its direction, a third restores the second state, and a click on another column sorts it ascending |
| Compliance.SelectUsers | frontend/src/components/ComplianceReport.jsx:55 | the selected users are a subsequence of the users, each matching the role filter |
| Compliance.SelectUsersExact | frontend/src/components/ComplianceReport.jsx:55 | an empty role filter keeps all users in order; otherwise a user is kept iff their role equals the filter |
| Compliance.UserCerts | frontend/src/components/ComplianceReport.jsx:57 | a user's rows are a subsequence of all rows, each carrying the user's email |
| Compliance.FirstNamed | frontend/src/components/ComplianceReport.jsx:63 | the first row with a given name, and none iff no row has it |
| Compliance.StatusFor | frontend/src/components/ComplianceReport.jsx:61-71 | the status starts with "Yes" iff the user holds the name, is "No" otherwise, is exactly "Yes"/"No" without dates, and carries the first matching row's formatted date when dates are shown |
| Compliance.FormatDate | frontend/src/components/ComplianceReport.jsx:66 | any text that is not a date, a missing or "N/A" date among them, formats as "Invalid Date"; a date formats with the locale format |
| Compliance.MandatoryCompleted | frontend/src/components/ComplianceReport.jsx:73-85 | true iff every mandatory name is among the user's names; vacuously true with none |
| Compliance.AllFound | frontend/src/components/ComplianceReport.jsx:76-81 | the per-name loop finds each mandatory name iff all are present |
| Compliance.MandatoryMeansNothingMissing | frontend/src/components/ComplianceReport.jsx:73-85 | the frontend's mandatory check agrees with the backend's missing list being empty |
| Compliance.Column | frontend/src/components/ComplianceReport.jsx:97-104 | `row[key]`: the year count is a number, PEP compliance and the status columns are strings, and a status column named like a fixed field overrides it |
| Compliance.RowOf | frontend/src/components/ComplianceReport.jsx:56-104 | name, email and role are the user's own, or "N/A" when empty; one status per column, the year count counts the user's rows dated in the filter year (repeats included), and PEP compliant is "Yes" iff every mandatory name is held and the count is at least two |
| Compliance.ReportRows | frontend/src/components/ComplianceReport.jsx:54-105 | one row per selected user, in order |
| Compliance.ReportRowsWellFormed | frontend/src/components/ComplianceReport.jsx:97-104 | every report row has a status for exactly the columns, each "Yes…" or "No" |
| Compliance.CompareAsWritten | frontend/src/components/ComplianceReport.jsx:109-130 | the comparator as written |
| Compliance.AsWrittenCycle | frontend/src/components/ComplianceReport.jsx:113-124 | on a name column the written comparator orders Nora before Oscar, Oscar before Yesenia and Yesenia before Nora |
| Compliance.AsWrittenHasNoSortedOrder | frontend/src/components/ComplianceReport.jsx:108-131 | no arrangement of rows holding those three names is sorted by it |
| Compliance.CompareFacts | frontend/src/components/ComplianceReport.jsx:113-129 | on status columns the corrected comparator is the written one; descending is the exact negation of ascending; "Yes…" precedes "No" ascending; a string and a number compare 0 |
| Compliance.ComparePreorder | frontend/src/components/ComplianceReport.jsx:113-129 | on values of one kind the corrected comparator is antisymmetric, total and transitive |
| Compliance.RowCompareOrders | frontend/src/components/ComplianceReport.jsx:108-131 | on well-formed report rows the corrected row comparator is total and transitive for every column and direction |
| Compliance.RowComparatorsAgree | frontend/src/components/ComplianceReport.jsx:113-129 | on a status column or the year count the component's comparator gives the corrected one's result |
| Compliance.AsWrittenOrders | frontend/src/components/ComplianceReport.jsx:108-131 | on a status column or the year count the component's comparator is total and transitive over well-formed rows |
| Compliance.Evaluate | frontend/src/components/ComplianceReport.jsx:53-134 | the report rows, sorted with the component's own comparator: rearranged only, and in the users' order with no sort key |
| Compliance.EvaluateSorted | frontend/src/components/ComplianceReport.jsx:108-131 | sorted on a status column or the year count, the report comes out ordered by the component's comparator |
| Compliance.EvaluateCorrected | frontend/src/components/ComplianceReport.jsx:53-134 | the report sorted with the corrected comparator: rearranged only, and in the users' order with no sort key |
| Compliance.EvaluateCorrectedSorted | frontend/src/components/ComplianceReport.jsx:108-131 | with the corrected comparator the report comes out ordered on every column, names included |
| Compliance.EvaluateAgrees | frontend/src/components/ComplianceReport.jsx:108-131 | with no sort key, or on a status column or the year count, the component's report and the corrected one are identical |
| UserTable.Field | frontend/src/components/UserTable.jsx:11-12 | the text columns of a row are strings, and no column is a number |
| UserTable.TableCompareFacts | frontend/src/components/UserTable.jsx:14-43 | "N/A" sorts after every other value in both directions and ties with itself; otherwise descending negates ascending, dates compare by time, other strings lexicographically, and anything else ties |
| UserTable.TablePreorder | frontend/src/components/UserTable.jsx:14-43 | on comparable values the table comparator is total and transitive |
| UserTable.SortedCerts | frontend/src/components/UserTable.jsx:7-47 | the table only rearranges its rows, and with no key keeps their order |
| UserTable.SortedCertsOrdered | frontend/src/components/UserTable.jsx:9-46 | with a key the rows come out ordered, and "N/A" cells only at the bottom |
| SelfService.NewCert | frontend/src/components/SelfServiceForm.js:30-40 | the new certification is named after the role's first requirement (else ""), provider Salesforce, status active, empty dates and meta |
| SelfService.AddCert | frontend/src/components/SelfServiceForm.js:29-42 | one certification is appended and the earlier ones are unchanged |
| SelfService.SetField | frontend/src/components/SelfServiceForm.js:45 | the chosen field takes the value; every other field, a null expiry and the metadata are unchanged |
| SelfService.SetFieldOwnValue | frontend/src/components/SelfServiceForm.js:45 | writing back a field's own value changes nothing |
| SelfService.UpdateCert | frontend/src/components/SelfServiceForm.js:44-47 | length kept; only the field of the chosen element changes, its expiry and metadata are kept otherwise; an index out of range changes nothing |
| SelfService.UpdateCertRoundTrip | frontend/src/components/SelfServiceForm.js:44-47 | a later update of the same field supersedes an earlier one, and restoring the old value restores the list |
| SelfService.RemoveCert | frontend/src/components/SelfServiceForm.js:49-51 | exactly the chosen element is removed, the rest kept in order; an index out of range changes nothing |
| SelfService.RemoveUndoesAdd | frontend/src/components/SelfServiceForm.js:29-51 | removing the certification just added gives the list back |
| Scenarios.ImportBatchExample | backend/server.mjs:150-170 | two good lines around a bad one give success 2 and one error at row 3 |
| Scenarios.BlankEmailAccepted | backend/server.mjs:152-157 | a line whose email is only blanks is accepted although its trimmed email, the key it is stored under, is empty |
| Scenarios.OwnRows | frontend/src/components/ComplianceReport.jsx:57 | with a single user, the user's rows are exactly their flattened certifications |
| Scenarios.YeseniaBeforeNora | frontend/src/components/ComplianceReport.jsx:109-124 | sorted by name ascending, the component lists Yesenia before Nora while the corrected comparator lists Nora first |
| Scenarios.AdminMissingMandatory | frontend/src/components/ComplianceReport.jsx:73-102 | an Admin with two Administrator certifications in the year counts two but is not compliant, lacking Advanced Administrator |
| Scenarios.AdminCompliant | frontend/src/components/ComplianceReport.jsx:73-102 | an Admin holding both mandatory names, two of them dated in the year, is compliant |

## Left out

- HTTP routing, CORS, uploads, response codes and the file-backed cache reads and writes (backend/server.mjs:1-20, 30-41): the cache is a value passed in and returned; the `GET /api/get-cache`, `GET /api/users/:email` and `GET /api/roles` handlers (backend/server.mjs:76-86, 179-181) are reads of that value, modelled only through `Cache.FindIndex`.
- The network call, URL building and nested JSON parsing inside `fetchCertification` (backend/server.mjs:43-62): a fetch parameter returning `Option<FetchResult>`, with `None` for every failure it maps to `null`.
- Wall-clock time: one `now` string per operation, so every entry of a refresh gets the same stamp, where the source reads the clock once per user.
- Date parsing, time values and locale formatting: the `Calendar` parameter, whose functions are arbitrary; the locale month names of the month chart are not modelled.
- `Number(...)` of a non-numeric filter string: dashboard month and year filters are `Option<int>` (`None` for ""), and the report years are integers.
- The bucket `certsByYearData` would make for a date that parses to NaN (the key "NaN"): such rows count as undated, as `YearOf` is `None` for them.
- JavaScript object key order (integer-like keys first) for `certCounts` and the tallies: tallies keep first-seen order.
- Strings are sequences of code points rather than UTF-16 units.
- Strings.ToLower: lowers only Basic Latin and Latin-1 capitals; letters outside those blocks are left unchanged, and the cases where lowering changes the length (such as U+0130) are not modelled.
- Keys that hit inherited object properties, such as "constructor" or "__proto__". The source looks up role names in plain objects (backend/server.mjs:94, frontend/src/components/ComplianceReport.jsx:58). It also tallies with `acc[k] = (acc[k] || 0) + 1` on `{}` (frontend/src/components/StatsOverview.jsx:8-11, frontend/src/components/AdvancedReports.jsx:10-16, 25-30, 56-61, 74-79). Registry.RequirementsFor, Grouping.TallyOf, Stats.OverviewOf, Reports.CertsByYear, Reports.TopCerts and Reports.Persons treat every key as an own key. They do not model the string count that a name such as "constructor" would get, or a "__proto__" key being dropped.
- A user whose `certifications` field is absent: the model has a list, empty for none.
- The legacy dashboard throwing on a row without a name, and its records list without `records`: legacy rows always carry strings.
- The person name in the advanced reports: it is copied from the first row, and the current flattening always writes "N/A" there.
- React state, hooks, memoisation, modals, charts, timers and the CSV export of the compliance report (frontend/src/components/ComplianceReport.jsx:174-206, frontend/src/App.js:142-171); the self-service form's submit and load (HTTP); frontend/src/fetchPepDefinition.js and frontend/src/App.test.js.
- The unused role table constant of the compliance report (frontend/src/components/ComplianceReport.jsx:5-11): the evaluator takes the role table as a parameter.
- Compliance.EvaluateSorted: order is proved only on the status columns and the year count. On the name, email and role columns the component's comparator is not a total preorder (see Findings), so the order the engine returns there is not determined. `Compliance.Evaluate` uses the stable reference sort with that comparator. It agrees with the engine wherever the comparator is consistent on the rows, as for two rows "Yesenia" and "Nora", which it lists Yesenia first (Scenarios.YeseniaBeforeNora).
- The engine's sort algorithm: `Sorting.SortBy` is a stable reference sort; results are stated as permutation plus order, which any correct engine sort also meets when the comparator is consistent.
- UserTable.SortedCerts: "the input array is never mutated" has no counterpart, since the model's sequences are values.
- SelfService.UpdateCert: an update to the `meta` field (or to a field name outside the record's six) is not modelled; the fields are an enumeration of the five string-valued ones.

## Findings

| source | as written | input that shows it | evidently intended | confidence | as-written member | corrected member |
|---|---|---|---|---|---|---|
| frontend/src/components/ComplianceReport.jsx:113-119 | the Yes/No rule applies to every string column, so on the name or email column any value starting with "Yes" precedes any starting with "No" | names "Nora", "Oscar", "Yesenia": Nora < Oscar < Yesenia by string order, yet Yesenia < Nora by the Yes/No rule, a cycle under which no order is sorted | the rule only for the certification status columns and PEP compliance, as the comment on line 113 says; other strings compare as strings | not executed | Compliance.AsWrittenHasNoSortedOrder | Compliance.EvaluateCorrectedSorted |

=== FILE: cache.dfy ===
/** The cache of user profiles and the validated profile write
    (`PUT /api/users`). The cache is a sequence of profiles; reading and
    writing the JSON file that holds it are not modelled. */
module Cache {
  import opened Wrappers
  import opened Records
  import Registry

  /** At most one profile per email. */
  predicate UniqueEmails(cache: seq<UserProfile>) {
    forall i, j :: 0 <= i < j < |cache| ==> cache[i].email != cache[j].email
  }

  /** The emails of the cache, in cache order. */
  function Emails(cache: seq<UserProfile>): (r: seq<string>)
    ensures |r| == |cache|
    ensures forall i :: 0 <= i < |cache| ==> r[i] == cache[i].email
  {
    seq(|cache|, i requires 0 <= i < |cache| => cache[i].email)
  }

  /** `cache.findIndex(u => u.email === email)`, `None` for -1. */
  function FindIndex(cache: seq<UserProfile>, email: string): (r: Option<nat>)
    ensures r.Some? ==> r.value < |cache| && cache[r.value].email == email
    ensures r.Some? ==> forall j :: 0 <= j < r.value ==> cache[j].email != email
    ensures r.None? <==> forall j :: 0 <= j < |cache| ==> cache[j].email != email
  {
    if |cache| == 0 then None
    else if cache[0].email == email then Some(0)
    else match FindIndex(cache[1..], email)
      case Some(i) => Some(i + 1)
      case None => None
  }

  /** The first profile with `email` is the one at `k`. */
  lemma FindIndexAt(cache: seq<UserProfile>, email: string, k: nat)
    requires k < |cache| && cache[k].email == email
    requires forall j :: 0 <= j < k ==> cache[j].email != email
    ensures FindIndex(cache, email) == Some(k)
  {
    var r := FindIndex(cache, email);
    assert r.Some?;
    assert !(r.value < k);
    assert !(k < r.value);
  }

  /** Replaces the first profile with `entry`'s email by `entry`, or appends
      `entry` when there is none. */
  function Upsert(cache: seq<UserProfile>, entry: UserProfile): (r: seq<UserProfile>)
    ensures FindIndex(cache, entry.email).Some? ==> |r| == |cache|
    ensures FindIndex(cache, entry.email).None? ==> |r| == |cache| + 1 && r[|cache|] == entry
    ensures FindIndex(r, entry.email).Some? && r[FindIndex(r, entry.email).value] == entry
    ensures FindIndex(cache, entry.email).Some? ==> FindIndex(r, entry.email) == FindIndex(cache, entry.email)
    ensures FindIndex(cache, entry.email).None? ==> FindIndex(r, entry.email) == Some(|cache|)
    ensures forall j :: 0 <= j < |cache| && cache[j].email != entry.email ==> r[j] == cache[j]
    ensures forall j :: 0 <= j < |cache| && j != FindIndex(r, entry.email).value ==> r[j] == cache[j]
  {
    match FindIndex(cache, entry.email)
    case Some(i) =>
      var r := cache[i := entry];
      FindIndexAt(r, entry.email, i);
      r
    case None =>
      var r := cache + [entry];
      FindIndexAt(r, entry.email, |cache|);
      r
  }

  /** An upsert keeps emails unique. */
  lemma UpsertKeepsUnique(cache: seq<UserProfile>, entry: UserProfile)
    requires UniqueEmails(cache)
    ensures UniqueEmails(Upsert(cache, entry))
  {
    var r := Upsert(cache, entry);
    var k := FindIndex(r, entry.email).value;
    forall i, j | 0 <= i < j < |r|
      ensures r[i].email != r[j].email
    {
      if j == |cache| {
        assert r[i] == cache[i];
      } else if i != k && j != k {
        assert r[i] == cache[i] && r[j] == cache[j];
      } else if i == k {
        assert r[j] == cache[j];
      } else {
        assert r[i] == cache[i];
      }
    }
  }

  /** Upserting the same entry twice is the same as upserting it once. */
  lemma UpsertIdempotent(cache: seq<UserProfile>, entry: UserProfile)
    ensures Upsert(Upsert(cache, entry), entry) == Upsert(cache, entry)
  {
  }

  /** The body of a profile write. `searchString` is "" when the request
      omits it; a missing certification list is the empty one. */
  datatype WriteRequest = WriteRequest(
    email: string,
    role: string,
    searchString: string,
    certifications: seq<CertRecord>)

  datatype WriteError =
    | EmailAndRoleRequired
    | MissingMandatory(missing: seq<string>)

  /** The cache after a write attempt and what the write answers. */
  datatype WriteOutcome = WriteOutcome(cache: seq<UserProfile>, result: Result<UserProfile, WriteError>)

  function CertNames(certs: seq<CertRecord>): (r: seq<string>)
    ensures |r| == |certs|
    ensures forall i :: 0 <= i < |certs| ==> r[i] == certs[i].name
  {
    seq(|certs|, i requires 0 <= i < |certs| => certs[i].name)
  }

  /** `PUT /api/users` with the clock reading `now`: a request without
      email or role is refused; one lacking a certification its role
      requires is refused with the missing names; otherwise the profile is
      stored under its email. */
  function PutUser(cache: seq<UserProfile>, req: WriteRequest, now: string): (r: WriteOutcome)
    ensures req.email == "" || req.role == "" ==> r == WriteOutcome(cache, Failure(EmailAndRoleRequired))
    ensures req.email != "" && req.role != "" ==>
              (r.result.Failure? <==>
                exists n :: n in Registry.RequirementsFor(Registry.RoleRequirements, req.role)
                            && n !in CertNames(req.certifications))
    ensures r.result.Failure? ==> r.cache == cache
    ensures r.result.Failure? && r.result.error.MissingMandatory? ==>
              var required := Registry.RequirementsFor(Registry.RoleRequirements, req.role);
              && r.result.error.missing == Registry.Missing(required, CertNames(req.certifications))
              && |r.result.error.missing| > 0
    ensures r.result.Success? ==>
              var e := r.result.value;
              var prior := FindIndex(cache, req.email);
              && e.email == req.email && e.role == req.role
              && e.certifications == req.certifications
              && e.lastUpdated == Some(now) && e.extra == map[]
              && e.searchString == (if req.searchString != "" then req.searchString
                                    else if prior.Some? then cache[prior.value].searchString
                                    else "")
              && r.cache == Upsert(cache, e)
  {
    if req.email == "" || req.role == "" then
      WriteOutcome(cache, Failure(EmailAndRoleRequired))
    else
      var required := Registry.RequirementsFor(Registry.RoleRequirements, req.role);
      var missing := Registry.Missing(required, CertNames(req.certifications));
      if |missing| > 0 then
        WriteOutcome(cache, Failure(MissingMandatory(missing)))
      else
        var idx := FindIndex(cache, req.email);
        var entry := UserProfile(
          req.email, req.role,
          OrElse(req.searchString, if idx.Some? then cache[idx.value].searchString else ""),
          req.certifications, Some(now), map[]);
        WriteOutcome(Upsert(cache, entry), Success(entry))
  }

  /** A successful write keeps emails unique. */
  lemma PutUserKeepsUnique(cache: seq<UserProfile>, req: WriteRequest, now: string)
    requires UniqueEmails(cache)
    ensures UniqueEmails(PutUser(cache, req, now).cache)
  {
    var r := PutUser(cache, req, now);
    if r.result.Success? {
      UpsertKeepsUnique(cache, r.result.value);
    }
  }

  /** Repeating an accepted write stores the same profile, only the time
      stamp differing: the cache is as if the second write alone had been
      made. */
  lemma PutUserRepeat(cache: seq<UserProfile>, req: WriteRequest, t1: string, t2: string)
    requires PutUser(cache, req, t1).result.Success?
    ensures var once := PutUser(cache, req, t1);
            var twice := PutUser(once.cache, req, t2);
            && twice.result.Success?
            && twice.result.value == once.result.value.(lastUpdated := Some(t2))
            && twice.cache == PutUser(cache, req, t2).cache
  {
    var once := PutUser(cache, req, t1);
    var e1 := once.result.value;
    var k := FindIndex(once.cache, req.email).value;
    assert once.cache[k] == e1;
    var e2 := PutUser(cache, req, t2).result.value;
    assert e2 == e1.(lastUpdated := Some(t2));
    UpsertOverwrite(cache, e1, e2);
  }

  /** A second upsert under the same email overwrites the first one. */
  lemma UpsertOverwrite(cache: seq<UserProfile>, e1: UserProfile, e2: UserProfile)
    requires e1.email == e2.email
    ensures Upsert(Upsert(cache, e1), e2) == Upsert(cache, e2)
  {
    var once := Upsert(cache, e1);
    match FindIndex(cache, e1.email)
    case Some(i) =>
      FindIndexAt(once, e1.email, i);
    case None =>
      FindIndexAt(once, e1.email, |cache|);
  }

  /** A role the registry does not list accepts a write with no
      certifications at all. */
  lemma UnknownRoleAcceptsEmptyList(cache: seq<UserProfile>, email: string, role: string, now: string)
    requires email != "" && role != "" && role !in Registry.RoleRequirements
    ensures PutUser(cache, WriteRequest(email, role, "", []), now).result.Success?
  {
  }
}

=== FILE: compliance.dfy ===
/** The role-based compliance report: one row per selected user with a
    Yes/No column per certification name, whether the role's mandatory
    certifications are all held, how many certifications fall in the
    report year, and the combined PEP verdict; rows can be sorted by any
    column. */
module Compliance {
  import opened Wrappers
  import opened Records
  import opened Ordering
  import Strings
  import Seqs
  import Sorting
  import Registry
  import Stats
  import Reports

  /** What `toLocaleDateString()` gives for an invalid date. */
  const InvalidDate := "Invalid Date"

  /** `new Date(s).toLocaleDateString()`: any text that is not a date,
      "" and "N/A" among them, prints as "Invalid Date". */
  function FormatDate(cal: Calendar, s: string): (r: string)
    ensures s == "" || s == NA ==> r == InvalidDate
    ensures DateOf(cal, s).None? ==> r == InvalidDate
    ensures DateOf(cal, s).Some? ==> r == cal.format(s)
  {
    if DateOf(cal, s).None? then InvalidDate else cal.format(s)
  }

  /** The report's filter: a role ("" for all) and a year. */
  datatype ReportFilters = ReportFilters(role: string, year: int)

  predicate RoleSelected(f: ReportFilters, u: UserProfile) {
    f.role == "" || u.role == f.role
  }

  /** The users the report lists, in cache order. */
  function SelectUsers(f: ReportFilters, users: seq<UserProfile>): (r: seq<UserProfile>)
    ensures Seqs.IsSubsequence(r, users)
    ensures forall i :: 0 <= i < |r| ==> RoleSelected(f, r[i])
  {
    Seqs.Filter((u: UserProfile) => RoleSelected(f, u), users)
  }

  /** An empty role filter lists everybody; otherwise exactly the users
      holding that role are listed. */
  lemma SelectUsersExact(f: ReportFilters, users: seq<UserProfile>, u: UserProfile)
    ensures f.role == "" ==> SelectUsers(f, users) == users
    ensures u in SelectUsers(f, users) <==> u in users && (f.role == "" || u.role == f.role)
  {
    Seqs.FilterCounts((u: UserProfile) => RoleSelected(f, u), users);
    if f.role == "" {
      Seqs.FilterKeepsAll((u: UserProfile) => RoleSelected(f, u), users);
    }
  }

  /** The rows of `allCerts` that belong to `u`. */
  function UserCerts(allCerts: seq<FlatCert>, u: UserProfile): (r: seq<FlatCert>)
    ensures Seqs.IsSubsequence(r, allCerts)
    ensures forall i :: 0 <= i < |r| ==> r[i].email == u.email
  {
    Seqs.Filter((c: FlatCert) => c.email == u.email, allCerts)
  }

  /** `certs.find(c => c.certName === name)`, as an index. */
  function FirstNamed(certs: seq<FlatCert>, name: string): (r: Option<nat>)
    ensures r.Some? ==> r.value < |certs| && certs[r.value].certName == name
    ensures r.Some? ==> forall j :: 0 <= j < r.value ==> certs[j].certName != name
    ensures r.None? <==> name !in Stats.CertNames(certs)
  {
    if |certs| == 0 then None
    else if certs[0].certName == name then
      assert Stats.CertNames(certs)[0] == name;
      Some(0)
    else
      var rest := FirstNamed(certs[1..], name);
      Stats.CertNamesCons(certs);
      if rest.Some? then Some(rest.value + 1) else None
  }

  /** A status cell: "Yes" or "No", or "Yes (<date>)" when dates are shown. */
  predicate StatusValue(s: string) {
    s == "No" || Strings.StartsWith(s, "Yes")
  }

  /** The cell of certification `name` for a user with rows `userCerts`. */
  function StatusFor(cal: Calendar, showDates: bool, userCerts: seq<FlatCert>, name: string): (r: string)
    ensures Strings.StartsWith(r, "Yes") <==> name in Stats.CertNames(userCerts)
    ensures name !in Stats.CertNames(userCerts) ==> r == "No"
    ensures !showDates ==> r == "Yes" || r == "No"
    ensures showDates && name in Stats.CertNames(userCerts) ==>
              r == "Yes (" + FormatDate(cal, userCerts[FirstNamed(userCerts, name).value].certDate) + ")"
    ensures StatusValue(r)
  {
    match FirstNamed(userCerts, name)
    case Some(k) =>
      var r := if showDates then "Yes (" + FormatDate(cal, userCerts[k].certDate) + ")" else "Yes";
      assert r[..3] == "Yes";
      r
    case None => "No"
  }

  /** `allMandatoryCompleted`: every mandatory name occurs among `names`;
      nothing is checked when there are no mandatory names. */
  function MandatoryCompleted(mandatory: seq<string>, names: seq<string>): (r: bool)
    ensures r <==> forall n :: n in mandatory ==> n in names
  {
    if |mandatory| > 0 then AllFound(mandatory, names) else true
  }

  function AllFound(mandatory: seq<string>, names: seq<string>): (r: bool)
    ensures r <==> forall i :: 0 <= i < |mandatory| ==> mandatory[i] in names
  {
    if |mandatory| == 0 then true
    else
      assert forall i :: 1 <= i < |mandatory| ==> mandatory[1..][i - 1] == mandatory[i];
      (mandatory[0] in names) && AllFound(mandatory[1..], names)
  }

  /** The report's mandatory check and the profile write's validation are
      the same policy: complete exactly when nothing is missing. */
  lemma MandatoryMeansNothingMissing(mandatory: seq<string>, names: seq<string>)
    ensures MandatoryCompleted(mandatory, names) <==> Registry.Missing(mandatory, names) == []
  {
  }

  /** One row of the report. `status` maps each certification column to its
      cell. */
  datatype Row = Row(
    name: string,
    email: string,
    role: string,
    status: map<string, string>,
    pepCompliant: string,
    certsThisYear: nat)

  /** `row[key]` on the row object. The object is built from name, email
      and role, then the certification cells, then `pepCompliant` and
      `certsThisYear`, a later property replacing an earlier one of the
      same name. */
  function Column(row: Row, key: string): (v: Value)
    ensures key == "certsThisYear" ==> v == Num(row.certsThisYear)
    ensures key == "pepCompliant" ==> v == Str(row.pepCompliant)
    ensures key != "certsThisYear" && key != "pepCompliant" && key in row.status ==> v == Str(row.status[key])
    ensures v.Num? ==> key == "certsThisYear"
  {
    if key == "certsThisYear" then Num(row.certsThisYear)
    else if key == "pepCompliant" then Str(row.pepCompliant)
    else if key in row.status then Str(row.status[key])
    else if key == "name" then Str(row.name)
    else if key == "email" then Str(row.email)
    else if key == "role" then Str(row.role)
    else Undefined
  }

  /** `user.Name`, "" when the profile has none. */
  function ProfileName(u: UserProfile): string
  {
    if "Name" in u.extra then u.extra["Name"] else ""
  }

  /** The row of user `u` for certification columns `columns`. */
  function RowOf(cal: Calendar, allCerts: seq<FlatCert>, config: map<string, seq<string>>,
                 columns: seq<string>, f: ReportFilters, showDates: bool, u: UserProfile): (r: Row)
    ensures r.name == OrElse(ProfileName(u), NA) && r.email == OrElse(u.email, NA) && r.role == OrElse(u.role, NA)
    ensures r.email != "" && r.role != "" && r.name != ""
    ensures r.status.Keys == set n | n in columns
    ensures forall n :: n in columns ==>
              r.status[n] == StatusFor(cal, showDates, UserCerts(allCerts, u), n)
    ensures r.certsThisYear == |Reports.InYear(cal, f.year, UserCerts(allCerts, u))|
    ensures r.pepCompliant == "Yes" || r.pepCompliant == "No"
    ensures r.pepCompliant == "Yes" <==>
              && (forall n :: n in Registry.RequirementsFor(config, u.role) ==> n in Stats.CertNames(UserCerts(allCerts, u)))
              && r.certsThisYear >= 2
  {
    var uc := UserCerts(allCerts, u);
    var mandatory := MandatoryCompleted(Registry.RequirementsFor(config, u.role), Stats.CertNames(uc));
    var count := |Reports.InYear(cal, f.year, uc)|;
    Row(OrElse(ProfileName(u), NA), OrElse(u.email, NA), OrElse(u.role, NA),
        map n | n in columns :: StatusFor(cal, showDates, uc, n),
        if mandatory && count >= 2 then "Yes" else "No",
        count)
  }

  /** A row as `RowOf` builds them for `columns`. */
  ghost predicate WellFormed(columns: seq<string>, row: Row) {
    && row.status.Keys == (set n | n in columns)
    && (forall n :: n in row.status ==> StatusValue(row.status[n]))
    && StatusValue(row.pepCompliant)
  }

  /** The comparator of the report as the component writes it: a value
      starting with "Yes" goes before one starting with "No" in whatever
      column, then strings compare as strings and numbers as numbers, and
      anything else is a tie. */
  function CompareAsWritten(ascending: bool, a: Value, b: Value): int
  {
    if a.Str? && Strings.StartsWith(a.s, "Yes") && b.Str? && Strings.StartsWith(b.s, "No") then
      (if ascending then -1 else 1)
    else if a.Str? && Strings.StartsWith(a.s, "No") && b.Str? && Strings.StartsWith(b.s, "Yes") then
      (if ascending then 1 else -1)
    else if a.Str? && b.Str? then
      if Strings.Less(a.s, b.s) then (if ascending then -1 else 1)
      else if Strings.Less(b.s, a.s) then (if ascending then 1 else -1)
      else 0
    else if a.Num? && b.Num? then
      if a.n < b.n then (if ascending then -1 else 1)
      else if a.n > b.n then (if ascending then 1 else -1)
      else 0
    else 0
  }

  /** Three people named Nora, Oscar and Yesenia: by the as-written
      comparator Nora precedes Oscar and Oscar precedes Yesenia as strings,
      yet Yesenia precedes Nora because "Yesenia" starts with "Yes" and
      "Nora" with "No". */
  lemma AsWrittenCycle()
    ensures CompareAsWritten(true, Str("Nora"), Str("Oscar")) < 0 < CompareAsWritten(true, Str("Oscar"), Str("Nora"))
    ensures CompareAsWritten(true, Str("Oscar"), Str("Yesenia")) < 0 < CompareAsWritten(true, Str("Yesenia"), Str("Oscar"))
    ensures CompareAsWritten(true, Str("Yesenia"), Str("Nora")) < 0 < CompareAsWritten(true, Str("Nora"), Str("Yesenia"))
  {
    assert Strings.Less("Nora", "Oscar") && !Strings.Less("Oscar", "Nora");
    assert Strings.Less("Oscar", "Yesenia") && !Strings.Less("Yesenia", "Oscar");
    assert !Strings.StartsWith("Oscar", "Yes") && !Strings.StartsWith("Oscar", "No");
  }

  /** So no order of a name column holding those three names agrees with
      the as-written comparator, and what the sort returns is left to the
      engine. */
  lemma AsWrittenHasNoSortedOrder(s: seq<Value>)
    requires Str("Nora") in s && Str("Oscar") in s && Str("Yesenia") in s
    ensures !Sorting.Sorted((a: Value, b: Value) => CompareAsWritten(true, a, b), s)
  {
    var nora, oscar, yesenia := Str("Nora"), Str("Oscar"), Str("Yesenia");
    var n :| 0 <= n < |s| && s[n] == nora;
    var o :| 0 <= o < |s| && s[o] == oscar;
    var y :| 0 <= y < |s| && s[y] == yesenia;
    var cmp := (a: Value, b: Value) => CompareAsWritten(true, a, b);
    AsWrittenCycle();
    var i, j;
    if n < o {
      if o < y { i, j := n, y; } else { i, j := y, o; }
    } else {
      i, j := o, n;
    }
    assert i < j && cmp(s[i], s[j]) > 0;
  }

  /** A column whose cells are Yes/No statuses: a certification column or
      `pepCompliant`. */
  predicate StatusColumn(columns: seq<string>, key: string) {
    key == "pepCompliant" || key in columns
  }

  /** The comparator as intended: the Yes/No rule is applied on status
      columns only; every other column compares strings as strings. */
  function Compare(statusColumn: bool, ascending: bool, a: Value, b: Value): int
  {
    if statusColumn && a.Str? && Strings.StartsWith(a.s, "Yes") && b.Str? && Strings.StartsWith(b.s, "No") then
      (if ascending then -1 else 1)
    else if statusColumn && a.Str? && Strings.StartsWith(a.s, "No") && b.Str? && Strings.StartsWith(b.s, "Yes") then
      (if ascending then 1 else -1)
    else if a.Str? && b.Str? then
      if Strings.Less(a.s, b.s) then (if ascending then -1 else 1)
      else if Strings.Less(b.s, a.s) then (if ascending then 1 else -1)
      else 0
    else if a.Num? && b.Num? then
      if a.n < b.n then (if ascending then -1 else 1)
      else if a.n > b.n then (if ascending then 1 else -1)
      else 0
    else 0
  }

  /** On status columns the intended comparator is the written one;
      descending is exactly ascending negated; "Yes..." precedes "No"
      ascending; a string and a number tie. */
  lemma CompareFacts(statusColumn: bool, ascending: bool, a: Value, b: Value)
    ensures Compare(true, ascending, a, b) == CompareAsWritten(ascending, a, b)
    ensures Compare(statusColumn, false, a, b) == -Compare(statusColumn, true, a, b)
    ensures CompareAsWritten(false, a, b) == -CompareAsWritten(true, a, b)
    ensures a.Str? && b.Str? && Strings.StartsWith(a.s, "Yes") && b.s == "No" ==>
              Compare(true, true, a, b) < 0 && Compare(true, true, b, a) > 0
    ensures (a.Str? && b.Num?) || (a.Num? && b.Str?) ==> Compare(statusColumn, ascending, a, b) == 0
  {
    if a.Str? && b.Str? {
      Strings.LessAsymmetric(a.s, b.s);
    }
  }

  /** Two values of the same kind: both strings, both numbers, or both
      undefined. */
  predicate SameKind(a: Value, b: Value) {
    a.Str? == b.Str? && a.Num? == b.Num?
  }

  /** On a status column every string is a status cell. */
  predicate Fits(statusColumn: bool, v: Value) {
    statusColumn && v.Str? ==> StatusValue(v.s)
  }

  /** On values of one kind that fit the column, ascending comparison is a
      total preorder, and swapping the arguments negates it. */
  lemma ComparePreorder(statusColumn: bool, a: Value, b: Value, c: Value)
    requires SameKind(a, b) && SameKind(b, c)
    requires Fits(statusColumn, a) && Fits(statusColumn, b) && Fits(statusColumn, c)
    ensures Compare(statusColumn, true, a, b) == -Compare(statusColumn, true, b, a)
    ensures Compare(statusColumn, true, a, b) <= 0 || Compare(statusColumn, true, b, a) <= 0
    ensures Compare(statusColumn, true, a, b) <= 0 && Compare(statusColumn, true, b, c) <= 0 ==>
              Compare(statusColumn, true, a, c) <= 0
  {
    if a.Str? {
      Strings.LessAsymmetric(a.s, b.s);
      Strings.LessTotal(a.s, b.s);
      Strings.LessAsymmetric(b.s, c.s);
      Strings.LessTotal(b.s, c.s);
      Strings.LessAsymmetric(a.s, c.s);
      Strings.LessTotal(a.s, c.s);
      if Strings.Less(a.s, b.s) && Strings.Less(b.s, c.s) {
        Strings.LessTransitive(a.s, b.s, c.s);
      }
      if statusColumn {
        StatusShapes(a.s);
        StatusShapes(b.s);
        StatusShapes(c.s);
      }
    }
  }

  /** A status cell starts with exactly one of "Yes" and "No". */
  lemma StatusShapes(s: string)
    requires StatusValue(s)
    ensures Strings.StartsWith(s, "Yes") != Strings.StartsWith(s, "No")
    ensures Strings.StartsWith(s, "No") ==> s == "No"
  {
    if s != "No" {
      assert s[..3] == "Yes";
      assert s[0] == 'Y';
    }
  }

  /** The values of one column in rows built for the same columns are of
      one kind, and on a status column they are status cells. */
  lemma ColumnShape(columns: seq<string>, key: string, x: Row, y: Row)
    requires WellFormed(columns, x) && WellFormed(columns, y)
    ensures SameKind(Column(x, key), Column(y, key))
    ensures Fits(StatusColumn(columns, key), Column(x, key))
  {
    assert key in x.status <==> key in columns;
    assert key in y.status <==> key in columns;
  }

  /** The comparator the report sorts by. */
  function RowCompare(columns: seq<string>, key: string, ascending: bool): (Row, Row) -> int
  {
    (x: Row, y: Row) => Compare(StatusColumn(columns, key), ascending, Column(x, key), Column(y, key))
  }

  /** Over rows built for the same columns, the comparator orders any
      column consistently, ascending or descending. */
  lemma RowCompareOrders(columns: seq<string>, key: string, ascending: bool, rows: seq<Row>)
    requires forall x :: x in rows ==> WellFormed(columns, x)
    ensures Sorting.Connex(RowCompare(columns, key, ascending), rows)
    ensures Sorting.Transitive(RowCompare(columns, key, ascending), rows)
  {
    var cmp := RowCompare(columns, key, ascending);
    var st := StatusColumn(columns, key);
    forall x, y, z | x in rows && y in rows && z in rows
      ensures cmp(x, y) <= 0 || cmp(y, x) <= 0
      ensures cmp(x, y) <= 0 && cmp(y, z) <= 0 ==> cmp(x, z) <= 0
    {
      var a, b, c := Column(x, key), Column(y, key), Column(z, key);
      ColumnShape(columns, key, x, y);
      ColumnShape(columns, key, y, z);
      ColumnShape(columns, key, z, x);
      ComparePreorder(st, a, b, c);
      ComparePreorder(st, c, b, a);
      ComparePreorder(st, a, c, b);
      CompareFacts(st, ascending, a, b);
      CompareFacts(st, ascending, b, c);
      CompareFacts(st, ascending, a, c);
    }
  }

  /** The rows of the listed users, in their order. */
  function ReportRows(cal: Calendar, allCerts: seq<FlatCert>, config: map<string, seq<string>>,
                      columns: seq<string>, f: ReportFilters, showDates: bool, users: seq<UserProfile>): (r: seq<Row>)
    ensures |r| == |users|
    ensures forall i :: 0 <= i < |r| ==> r[i] == RowOf(cal, allCerts, config, columns, f, showDates, users[i])
  {
    seq(|users|, i requires 0 <= i < |users| => RowOf(cal, allCerts, config, columns, f, showDates, users[i]))
  }

  /** Every row of the report is well formed. */
  lemma ReportRowsWellFormed(cal: Calendar, allCerts: seq<FlatCert>, config: map<string, seq<string>>,
                             columns: seq<string>, f: ReportFilters, showDates: bool, users: seq<UserProfile>)
    ensures forall x :: x in ReportRows(cal, allCerts, config, columns, f, showDates, users) ==> WellFormed(columns, x)
  {
    var r := ReportRows(cal, allCerts, config, columns, f, showDates, users);
    forall x | x in r
      ensures WellFormed(columns, x)
    {
      var i :| 0 <= i < |r| && r[i] == x;
      RowOfWellFormed(cal, allCerts, config, columns, f, showDates, users[i]);
    }
  }

  /** Every row of the report has a status for each column and nothing
      else, and only status values in its cells. */
  lemma RowOfWellFormed(cal: Calendar, allCerts: seq<FlatCert>, config: map<string, seq<string>>,
                        columns: seq<string>, f: ReportFilters, showDates: bool, u: UserProfile)
    ensures WellFormed(columns, RowOf(cal, allCerts, config, columns, f, showDates, u))
  {
    var x := RowOf(cal, allCerts, config, columns, f, showDates, u);
    assert forall n :: n in x.status ==> n in columns;
  }

  /** The comparator the component sorts by: the as-written comparator
      applied to the chosen column. */
  function RowCompareAsWritten(key: string, ascending: bool): (Row, Row) -> int
  {
    (x: Row, y: Row) => CompareAsWritten(ascending, Column(x, key), Column(y, key))
  }

  /** A column on which the as-written comparator and the intended one
      agree: a status column, or the year count. */
  predicate AgreeingColumn(columns: seq<string>, key: string) {
    StatusColumn(columns, key) || key == "certsThisYear"
  }

  /** On status columns and on the year count the component's comparator
      is the intended one. */
  lemma RowComparatorsAgree(columns: seq<string>, key: string, ascending: bool, x: Row, y: Row)
    requires AgreeingColumn(columns, key)
    ensures RowCompareAsWritten(key, ascending)(x, y) == RowCompare(columns, key, ascending)(x, y)
  {
    CompareFacts(StatusColumn(columns, key), ascending, Column(x, key), Column(y, key));
  }

  /** Over well-formed rows and on an agreeing column, the component's
      comparator orders the rows consistently. */
  lemma AsWrittenOrders(columns: seq<string>, key: string, ascending: bool, rows: seq<Row>)
    requires forall x :: x in rows ==> WellFormed(columns, x)
    requires AgreeingColumn(columns, key)
    ensures Sorting.Connex(RowCompareAsWritten(key, ascending), rows)
    ensures Sorting.Transitive(RowCompareAsWritten(key, ascending), rows)
  {
    var written := RowCompareAsWritten(key, ascending);
    var intended := RowCompare(columns, key, ascending);
    RowCompareOrders(columns, key, ascending, rows);
    forall x, y | x in rows && y in rows
      ensures written(x, y) == intended(x, y)
    {
      RowComparatorsAgree(columns, key, ascending, x, y);
    }
    Sorting.OrdersTransfer(written, intended, rows);
  }

  /** `complianceData`: the rows of the selected users, in cache order when
      no column is chosen, otherwise sorted by the chosen column with the
      comparator as the component writes it. */
  function Evaluate(cal: Calendar, users: seq<UserProfile>, allCerts: seq<FlatCert>,
                    config: map<string, seq<string>>, f: ReportFilters, sort: SortConfig,
                    showDates: bool): (r: seq<Row>)
    ensures var rows := ReportRows(cal, allCerts, config, Stats.PanelNames(allCerts), f, showDates, SelectUsers(f, users));
            && multiset(r) == multiset(rows)
            && (sort.key.None? ==> r == rows)
  {
    var columns := Stats.PanelNames(allCerts);
    var rows := ReportRows(cal, allCerts, config, columns, f, showDates, SelectUsers(f, users));
    if sort.key.None? then rows
    else Sorting.SortBy(RowCompareAsWritten(sort.key.value, sort.ascending), rows)
  }

  /** With a status column or the year count chosen, the rows come out
      ordered by the component's comparator. */
  lemma EvaluateSorted(cal: Calendar, users: seq<UserProfile>, allCerts: seq<FlatCert>,
                       config: map<string, seq<string>>, f: ReportFilters, sort: SortConfig, showDates: bool)
    requires sort.key.Some? && AgreeingColumn(Stats.PanelNames(allCerts), sort.key.value)
    ensures Sorting.Sorted(RowCompareAsWritten(sort.key.value, sort.ascending),
                           Evaluate(cal, users, allCerts, config, f, sort, showDates))
  {
    var columns := Stats.PanelNames(allCerts);
    var key := sort.key.value;
    var rows := ReportRows(cal, allCerts, config, columns, f, showDates, SelectUsers(f, users));
    var written := RowCompareAsWritten(key, sort.ascending);
    ReportRowsWellFormed(cal, allCerts, config, columns, f, showDates, SelectUsers(f, users));
    AsWrittenOrders(columns, key, sort.ascending, rows);
    Sorting.SortByIsSorted(written, rows);
    assert Evaluate(cal, users, allCerts, config, f, sort, showDates) == Sorting.SortBy(written, rows);
  }

  /** The report sorted with the intended comparator. */
  function EvaluateCorrected(cal: Calendar, users: seq<UserProfile>, allCerts: seq<FlatCert>,
                             config: map<string, seq<string>>, f: ReportFilters, sort: SortConfig,
                             showDates: bool): (r: seq<Row>)
    ensures var rows := ReportRows(cal, allCerts, config, Stats.PanelNames(allCerts), f, showDates, SelectUsers(f, users));
            && multiset(r) == multiset(rows)
            && (sort.key.None? ==> r == rows)
  {
    var columns := Stats.PanelNames(allCerts);
    var rows := ReportRows(cal, allCerts, config, columns, f, showDates, SelectUsers(f, users));
    if sort.key.None? then rows
    else Sorting.SortBy(RowCompare(columns, sort.key.value, sort.ascending), rows)
  }

  /** With the intended comparator every column, names included, comes out
      ordered. */
  lemma EvaluateCorrectedSorted(cal: Calendar, users: seq<UserProfile>, allCerts: seq<FlatCert>,
                                config: map<string, seq<string>>, f: ReportFilters, sort: SortConfig, showDates: bool)
    requires sort.key.Some?
    ensures Sorting.Sorted(RowCompare(Stats.PanelNames(allCerts), sort.key.value, sort.ascending),
                           EvaluateCorrected(cal, users, allCerts, config, f, sort, showDates))
  {
    var columns := Stats.PanelNames(allCerts);
    var rows := ReportRows(cal, allCerts, config, columns, f, showDates, SelectUsers(f, users));
    ReportRowsWellFormed(cal, allCerts, config, columns, f, showDates, SelectUsers(f, users));
    RowCompareOrders(columns, sort.key.value, sort.ascending, rows);
    Sorting.SortByIsSorted(RowCompare(columns, sort.key.value, sort.ascending), rows);
  }

  /** Where the two comparators agree, so do the two reports. */
  lemma EvaluateAgrees(cal: Calendar, users: seq<UserProfile>, allCerts: seq<FlatCert>,
                       config: map<string, seq<string>>, f: ReportFilters, sort: SortConfig, showDates: bool)
    requires sort.key.None? || AgreeingColumn(Stats.PanelNames(allCerts), sort.key.value)
    ensures Evaluate(cal, users, allCerts, config, f, sort, showDates)
            == EvaluateCorrected(cal, users, allCerts, config, f, sort, showDates)
  {
    if sort.key.Some? {
      var columns := Stats.PanelNames(allCerts);
      var rows := ReportRows(cal, allCerts, config, columns, f, showDates, SelectUsers(f, users));
      forall x, y | x in rows && y in rows
        ensures RowCompareAsWritten(sort.key.value, sort.ascending)(x, y) == RowCompare(columns, sort.key.value, sort.ascending)(x, y)
      {
        RowComparatorsAgree(columns, sort.key.value, sort.ascending, x, y);
      }
      Sorting.SortByAgrees(RowCompareAsWritten(sort.key.value, sort.ascending),
                           RowCompare(columns, sort.key.value, sort.ascending), rows);
    }
  }
}

=== FILE: csvimport.dfy ===
/** The bulk import (`POST /api/upload-csv`): each line after the header of
    the uploaded text names an email, a role and a search string; accepted
    lines are merged into the cache by email, rejected ones are reported by
    line number. Reading and deleting the uploaded file are not modelled. */
module CsvImport {
  import opened Wrappers
  import opened Records
  import Strings
  import Seqs
  import Cache

  const InvalidRow: string := "Invalid row"

  datatype RowError = RowError(row: nat, error: string)

  datatype ImportReport = ImportReport(processed: nat, success: nat, errors: seq<RowError>)

  datatype ImportOutcome = ImportOutcome(cache: seq<UserProfile>, report: ImportReport)

  /** `content.trim().split('\n').slice(1)`: the lines after the header, one
      per line break of the trimmed text. */
  function DataLines(content: string): (r: seq<string>)
    ensures |r| == Strings.Occurrences(Strings.Trim(content), '\n')
    ensures forall l :: l in r ==> '\n' !in l
    ensures exists h :: '\n' !in h && Strings.Join([h] + r, '\n') == Strings.Trim(content)
  {
    var all := Strings.Split(Strings.Trim(content), '\n');
    assert forall l :: l in all[1..] ==> l in all;
    Strings.JoinSplit(Strings.Trim(content), '\n');
    assert all == [all[0]] + all[1..] && all[0] in all;
    all[1..]
  }

  /** Field `i` of `line.split(',')`, "" when the line has fewer fields
      (JavaScript gives `undefined`, which the row test treats alike). */
  function Field(line: string, i: nat): (r: string)
    ensures ',' !in r
  {
    var parts := Strings.Split(line, ',');
    if i < |parts| then parts[i] else ""
  }

  /** A line is accepted when its first three fields are non-empty as they
      stand, before any trimming. */
  predicate Accepted(line: string) {
    Field(line, 0) != "" && Field(line, 1) != "" && Field(line, 2) != ""
  }

  /** The cache after one line: an accepted line overwrites email, role,
      search string, certifications and time stamp of the profile with the
      trimmed email (keeping its other properties), or appends a new one; a
      rejected line changes nothing. */
  function ImportLine(cache: seq<UserProfile>, line: string): (r: seq<UserProfile>)
    ensures !Accepted(line) ==> r == cache
    ensures Accepted(line) ==>
              var email := Strings.Trim(Field(line, 0));
              var prior := Cache.FindIndex(cache, email);
              var at := Cache.FindIndex(r, email);
              && at.Some?
              && (prior.Some? ==> at == prior && |r| == |cache|)
              && (prior.None? ==> at == Some(|cache|) && |r| == |cache| + 1)
              && r[at.value].role == Strings.Trim(Field(line, 1))
              && r[at.value].searchString == Strings.Trim(Field(line, 2))
              && r[at.value].certifications == [] && r[at.value].lastUpdated == None
              && r[at.value].extra == (if prior.Some? then cache[prior.value].extra else map[])
              && (forall j :: 0 <= j < |cache| && j != at.value ==> r[j] == cache[j])
  {
    if Accepted(line) then
      var email := Strings.Trim(Field(line, 0));
      var prior := Cache.FindIndex(cache, email);
      var extra := if prior.Some? then cache[prior.value].extra else map[];
      Cache.Upsert(cache, UserProfile(email, Strings.Trim(Field(line, 1)), Strings.Trim(Field(line, 2)), [], None, extra))
    else
      cache
  }

  /** The cache after `lines`, processed in order, each line seeing the
      cache the previous ones left. */
  function ImportCache(cache: seq<UserProfile>, lines: seq<string>): seq<UserProfile>
    decreases |lines|
  {
    if |lines| == 0 then cache
    else
      var n := |lines| - 1;
      ImportLine(ImportCache(cache, lines[..n]), lines[n])
  }

  /** A batch without an accepted line leaves the cache as it was. */
  lemma {:induction false} ImportNothingAccepted(cache: seq<UserProfile>, lines: seq<string>)
    requires |Seqs.Filter(Accepted, lines)| == 0
    ensures ImportCache(cache, lines) == cache
    decreases |lines|
  {
    if |lines| > 0 {
      var n := |lines| - 1;
      assert lines == lines[..n] + [lines[n]];
      Seqs.FilterAppend(Accepted, lines[..n], [lines[n]]);
      ImportNothingAccepted(cache, lines[..n]);
    }
  }

  /** The report on `lines`: every line counts as processed, accepted lines
      as successes, and each rejected line gives an error naming its line
      number in the uploaded text (the header is line 1). */
  function Report(lines: seq<string>): (r: ImportReport)
    ensures r.processed == |lines|
    ensures r.success == |Seqs.Filter(Accepted, lines)|
    ensures r.success + |r.errors| == |lines|
  {
    ReportBy(Accepted, lines)
  }

  /** The report on `lines` for the row test `ok`. */
  function ReportBy<T(!new)>(ok: T -> bool, lines: seq<T>): (r: ImportReport)
    ensures r.processed == |lines|
    ensures r.success == |Seqs.Filter(ok, lines)|
    ensures r.success + |r.errors| == |lines|
    decreases |lines|
  {
    if |lines| == 0 then ImportReport(0, 0, [])
    else
      var n := |lines| - 1;
      var prev := ReportBy(ok, lines[..n]);
      assert lines == lines[..n] + [lines[n]];
      Seqs.FilterAppend(ok, lines[..n], [lines[n]]);
      if ok(lines[n]) then
        prev.(processed := prev.processed + 1, success := prev.success + 1)
      else
        prev.(processed := prev.processed + 1, errors := prev.errors + [RowError(n + 2, InvalidRow)])
  }

  /** `errors` names exactly the lines of `lines` that `ok` rejects, in
      order. */
  ghost predicate ErrorRows<T>(ok: T -> bool, lines: seq<T>, errors: seq<RowError>) {
    ErrorsRejected(ok, lines, errors) && ErrorsAscending(errors) && ErrorsCover(ok, lines, errors)
  }

  /** Every error names, by its line number (the header is line 1), a line
      of `lines` that `ok` rejects. */
  ghost predicate ErrorsRejected<T>(ok: T -> bool, lines: seq<T>, errors: seq<RowError>) {
    forall k :: 0 <= k < |errors| ==>
          && errors[k].error == InvalidRow
          && 2 <= errors[k].row < |lines| + 2
          && !ok(lines[errors[k].row - 2])
  }
  /** Errors are listed by increasing line number. */
  ghost predicate ErrorsAscending(errors: seq<RowError>) {
    forall k, l :: 0 <= k < l < |errors| ==> errors[k].row < errors[l].row
  }
  /** Every line that `ok` rejects has an error. */
  ghost predicate ErrorsCover<T>(ok: T -> bool, lines: seq<T>, errors: seq<RowError>) {
    forall i :: 0 <= i < |lines| && !ok(lines[i]) ==>
          exists k :: 0 <= k < |errors| && errors[k].row == i + 2
  }
  /** One more line: its error, if it is rejected, names it. */
  lemma RejectedStep<T>(ok: T -> bool, lines: seq<T>, prev: seq<RowError>, added: seq<RowError>)
    requires |lines| > 0
    requires ErrorsRejected(ok, lines[..|lines| - 1], prev)
    requires added == if ok(lines[|lines| - 1]) then [] else [RowError(|lines| + 1, InvalidRow)]
    ensures ErrorsRejected(ok, lines, prev + added)
  {
    var n := |lines| - 1;
    var errors := prev + added;
    forall k | 0 <= k < |errors|
      ensures errors[k].error == InvalidRow && 2 <= errors[k].row < |lines| + 2
      ensures !ok(lines[errors[k].row - 2])
    {
      if k < |prev| {
        assert errors[k] == prev[k];
        assert lines[..n][prev[k].row - 2] == lines[prev[k].row - 2];
      }
    }
  }
  /** One more line: its error, if any, goes last. */
  lemma AscendingStep(n: nat, prev: seq<RowError>, added: seq<RowError>)
    requires ErrorsAscending(prev)
    requires forall k :: 0 <= k < |prev| ==> prev[k].row < n
    requires forall k :: 0 <= k < |added| ==> added[k].row == n
    requires |added| <= 1
    ensures ErrorsAscending(prev + added)
  {
  }
  /** One more line: if it is rejected, it gets an error. */
  lemma CoverStep<T>(ok: T -> bool, lines: seq<T>, prev: seq<RowError>, added: seq<RowError>)
    requires |lines| > 0
    requires ErrorsCover(ok, lines[..|lines| - 1], prev)
    requires added == if ok(lines[|lines| - 1]) then [] else [RowError(|lines| + 1, InvalidRow)]
    ensures ErrorsCover(ok, lines, prev + added)
  {
    var n := |lines| - 1;
    var errors := prev + added;
    forall i | 0 <= i < |lines| && !ok(lines[i])
      ensures exists k :: 0 <= k < |errors| && errors[k].row == i + 2
    {
      if i < n {
        assert !ok(lines[..n][i]);
        var k :| 0 <= k < |prev| && prev[k].row == i + 2;
        assert errors[k].row == i + 2;
      } else {
        assert errors[|prev|].row == i + 2;
      }
    }
  }

  /** The errors of the report are exactly the rejected lines, in order. */
  lemma ReportErrors(lines: seq<string>)
    ensures ErrorRows(Accepted, lines, Report(lines).errors)
  {
    ReportByErrors(Accepted, lines);
  }

  /** The error the last line of `lines` adds: none when `ok` accepts it. */
  function LastError<T>(ok: T -> bool, lines: seq<T>): seq<RowError>
    requires |lines| > 0
  {
    if ok(lines[|lines| - 1]) then [] else [RowError(|lines| + 1, InvalidRow)]
  }

  lemma {:induction false} ReportByErrors<T(!new)>(ok: T -> bool, lines: seq<T>)
    ensures ErrorRows(ok, lines, ReportBy(ok, lines).errors)
    decreases |lines|
  {
    if |lines| > 0 {
      var init := lines[..|lines| - 1];
      ReportByErrors(ok, init);
      ReportByStep(ok, lines);
      ErrorRowsStep(ok, lines, ReportBy(ok, init).errors);
    }
  }

  /** One more line adds its error, if it is rejected, after the others. */
  lemma ReportByStep<T(!new)>(ok: T -> bool, lines: seq<T>)
    requires |lines| > 0
    ensures ReportBy(ok, lines).errors == ReportBy(ok, lines[..|lines| - 1]).errors + LastError(ok, lines)
  {
  }

  /** One more line: its error, if it is rejected, goes last. */
  lemma ErrorRowsStep<T>(ok: T -> bool, lines: seq<T>, prev: seq<RowError>)
    requires |lines| > 0
    requires ErrorRows(ok, lines[..|lines| - 1], prev)
    ensures ErrorRows(ok, lines, prev + LastError(ok, lines))
  {
    var added := LastError(ok, lines);
    RejectedStep(ok, lines, prev, added);
    AscendingStep(|lines| + 1, prev, added);
    CoverStep(ok, lines, prev, added);
  }

  /** Processes `lines`: the cache they leave and the report on them. The
      report does not depend on the cache. */
  function ImportLines(cache: seq<UserProfile>, lines: seq<string>): (r: ImportOutcome)
    ensures r.report.processed == |lines|
    ensures r.report.success + |r.report.errors| == |lines|
  {
    ImportOutcome(ImportCache(cache, lines), Report(lines))
  }

  /** The import of an uploaded text into the cache. */
  function ImportCsv(cache: seq<UserProfile>, content: string): (r: ImportOutcome)
    ensures r.report.processed == Strings.Occurrences(Strings.Trim(content), '\n')
    ensures r.report.success + |r.report.errors| == r.report.processed
  {
    ImportLines(cache, DataLines(content))
  }

  /** Importing two batches one after the other leaves the cache that
      importing them as one batch leaves. */
  lemma {:induction false} ImportSequential(cache: seq<UserProfile>, a: seq<string>, b: seq<string>)
    ensures ImportCache(cache, a + b) == ImportCache(ImportCache(cache, a), b)
    decreases |b|
  {
    if |b| == 0 {
      assert a + b == a;
    } else {
      var n := |b| - 1;
      ImportSequential(cache, a, b[..n]);
      assert (a + b)[..|a + b| - 1] == a + b[..n];
      assert (a + b)[|a + b| - 1] == b[n];
    }
  }

  /** An import keeps emails unique. */
  lemma {:induction false} ImportKeepsUnique(cache: seq<UserProfile>, lines: seq<string>)
    requires Cache.UniqueEmails(cache)
    ensures Cache.UniqueEmails(ImportCache(cache, lines))
    decreases |lines|
  {
    if |lines| > 0 {
      var n := |lines| - 1;
      ImportKeepsUnique(cache, lines[..n]);
      assert lines == lines[..n] + [lines[n]];
      var prev := ImportCache(cache, lines[..n]);
      if Accepted(lines[n]) {
        var email := Strings.Trim(Field(lines[n], 0));
        var prior := Cache.FindIndex(prev, email);
        Cache.UpsertKeepsUnique(prev, UserProfile(
          email, Strings.Trim(Field(lines[n], 1)), Strings.Trim(Field(lines[n], 2)), [], None,
          if prior.Some? then prev[prior.value].extra else map[]));
      }
    }
  }
}

=== FILE: dashboard.dfy ===
/** The dashboard's list of certifications: every certification of every
    cached profile as one flat row, narrowed by the filter panel's search
    text, certification name and month/year. Also the older dashboard
    component, which flattens a different record shape and reads the
    month/year filter differently. */
module Dashboard {
  import opened Wrappers
  import opened Records
  import Strings
  import Seqs
  import Sync

  /** The row the dashboard lists for certification `c` of user `u`. */
  function FlatOf(u: UserProfile, c: CertRecord): (f: FlatCert)
    ensures c.name != "" ==> f.certName == c.name
    ensures c.name == "" ==> f.certName == NA
    ensures c.earnedAt != "" ==> f.certDate == c.earnedAt
    ensures c.earnedAt == "" ==> f.certDate == NA
    ensures u.email != "" ==> f.email == u.email
    ensures u.email == "" ==> f.email == NA
    ensures f.certName != "" && f.certDate != "" && f.email != ""
    ensures f.name == NA && f.city == NA && f.state == NA && f.country == NA
    ensures f.userId == Some(u.email) && f.role == Some(u.role)
  {
    FlatCert(OrElse(u.email, NA), NA, NA, NA, NA, OrElse(c.name, NA), OrElse(c.earnedAt, NA),
             Some(u.email), Some(u.role))
  }

  /** The rows of one user, one per certification, in list order. */
  function Rows(u: UserProfile): (r: seq<FlatCert>)
    ensures |r| == |u.certifications|
    ensures forall i :: 0 <= i < |r| ==> r[i] == FlatOf(u, u.certifications[i])
  {
    seq(|u.certifications|, i requires 0 <= i < |u.certifications| => FlatOf(u, u.certifications[i]))
  }

  /** Number of certifications over all users. */
  function CertTotal(users: seq<UserProfile>): nat
  {
    if |users| == 0 then 0 else CertTotal(users[..|users| - 1]) + |users[|users| - 1].certifications|
  }

  /** `allCerts`: the rows of all users, user after user. */
  function AllCerts(users: seq<UserProfile>): (r: seq<FlatCert>)
  {
    Seqs.FlatMap(Rows, users)
  }

  lemma {:induction false} CertTotalIsSumOfRows(users: seq<UserProfile>)
    ensures Seqs.SumLengths(Rows, users) == CertTotal(users)
  {
    if |users| > 0 {
      CertTotalIsSumOfRows(users[..|users| - 1]);
    }
  }

  /** One row per certification: the list is as long as all certification
      lists together, and certification `j` of user `k` sits after the
      certifications of the users before `k`. */
  lemma AllCertsLayout(users: seq<UserProfile>, k: nat, j: nat)
    requires k < |users| && j < |users[k].certifications|
    ensures |AllCerts(users)| == CertTotal(users)
    ensures CertTotal(users[..k]) + j < |AllCerts(users)|
    ensures AllCerts(users)[CertTotal(users[..k]) + j] == FlatOf(users[k], users[k].certifications[j])
  {
    CertTotalIsSumOfRows(users);
    CertTotalIsSumOfRows(users[..k]);
    Seqs.FlatMapAt(Rows, users, k, j);
  }

  /** The filter panel's state. `month` and `year` are `None` for the
      empty selection and otherwise the number the selection reads as. */
  datatype Filters = Filters(search: string, certName: string, month: Option<int>, year: Option<int>)

  const NoFilters := Filters("", "", None, None)

  /** Case-insensitive substring test of the search text. */
  predicate Mentions(field: string, search: string) {
    Strings.Includes(Strings.ToLower(field), Strings.ToLower(search))
  }

  predicate MatchesSearch(f: Filters, c: FlatCert) {
    f.search == "" || Mentions(c.certName, f.search) || Mentions(c.email, f.search)
  }

  predicate MatchesCert(f: Filters, c: FlatCert) {
    f.certName == "" || c.certName == f.certName
  }

  /** `date` reads as a date in month `m` (1 to 12). */
  predicate InMonth(cal: Calendar, date: string, m: int) {
    DateOf(cal, date).Some? && DateOf(cal, date).value.month + 1 == m
  }

  /** `date` reads as a date in year `y`. */
  predicate InYear(cal: Calendar, date: string, y: int) {
    DateOf(cal, date).Some? && DateOf(cal, date).value.year == y
  }

  /** The month/year test of the dashboard: with both selected both must
      agree, with one selected that one must agree; a row without a date
      is not tested. */
  function MatchesDate(cal: Calendar, f: Filters, c: FlatCert): (r: bool)
    ensures c.certDate == "" || (f.month.None? && f.year.None?) ==> r
    ensures c.certDate != "" ==>
              (r <==> (f.month.None? || InMonth(cal, c.certDate, f.month.value))
                      && (f.year.None? || InYear(cal, c.certDate, f.year.value)))
  {
    if c.certDate != "" && (f.month.Some? || f.year.Some?) then
      match DateOf(cal, c.certDate)
      case None => false
      case Some(d) =>
        if f.month.Some? && f.year.Some? then d.month + 1 == f.month.value && d.year == f.year.value
        else if f.month.Some? then d.month + 1 == f.month.value
        else d.year == f.year.value
    else true
  }

  predicate Matches(cal: Calendar, f: Filters, c: FlatCert) {
    MatchesSearch(f, c) && MatchesCert(f, c) && MatchesDate(cal, f, c)
  }

  /** `filteredDashboardCerts`. */
  function FilterCerts(cal: Calendar, f: Filters, certs: seq<FlatCert>): (r: seq<FlatCert>)
    ensures Seqs.IsSubsequence(r, certs)
    ensures forall i :: 0 <= i < |r| ==> Matches(cal, f, r[i])
  {
    Seqs.Filter((c: FlatCert) => Matches(cal, f, c), certs)
  }

  /** A row is listed exactly when it is in the input and passes every
      filter. */
  lemma FilterCertsExact(cal: Calendar, f: Filters, certs: seq<FlatCert>, c: FlatCert)
    ensures c in FilterCerts(cal, f, certs) <==> c in certs && Matches(cal, f, c)
  {
    Seqs.FilterCounts((c: FlatCert) => Matches(cal, f, c), certs);
  }

  /** With every filter empty nothing is filtered out. */
  lemma NoFiltersKeepAll(cal: Calendar, certs: seq<FlatCert>)
    ensures FilterCerts(cal, NoFilters, certs) == certs
  {
    Seqs.FilterKeepsAll((c: FlatCert) => Matches(cal, NoFilters, c), certs);
  }

  /** The search ignores case: an upper-case search finds what its
      lower-case form finds. */
  lemma SearchIgnoresCase(f: Filters, c: FlatCert)
    requires f.search != "" && Strings.ToLower(f.search) != ""
    ensures MatchesSearch(f, c) == MatchesSearch(f.(search := Strings.ToLower(f.search)), c)
  {
    Strings.ToLowerIdempotent(f.search);
  }

  /** `{ search: v }`, `{ month: v }`, ...: the keys an update supplies. */
  datatype FilterPatch = FilterPatch(
    search: Option<string>,
    certName: Option<string>,
    month: Option<Option<int>>,
    year: Option<Option<int>>)

  /** `{ ...prev, ...newFilters }`. */
  function ApplyPatch(f: Filters, p: FilterPatch): (r: Filters)
    ensures p.search.Some? ==> r.search == p.search.value
    ensures p.search.None? ==> r.search == f.search
    ensures p.certName.Some? ==> r.certName == p.certName.value
    ensures p.certName.None? ==> r.certName == f.certName
    ensures p.month.Some? ==> r.month == p.month.value
    ensures p.month.None? ==> r.month == f.month
    ensures p.year.Some? ==> r.year == p.year.value
    ensures p.year.None? ==> r.year == f.year
  {
    Filters(
      if p.search.Some? then p.search.value else f.search,
      if p.certName.Some? then p.certName.value else f.certName,
      if p.month.Some? then p.month.value else f.month,
      if p.year.Some? then p.year.value else f.year)
  }

  /** `{ ...p, ...q }`: the later patch wins where both supply a key. */
  function Merge(p: FilterPatch, q: FilterPatch): FilterPatch
  {
    FilterPatch(
      if q.search.Some? then q.search else p.search,
      if q.certName.Some? then q.certName else p.certName,
      if q.month.Some? then q.month else p.month,
      if q.year.Some? then q.year else p.year)
  }

  /** Two updates in a row are one update with the merged keys, and an
      update repeated changes nothing more. */
  lemma PatchesCompose(f: Filters, p: FilterPatch, q: FilterPatch)
    ensures ApplyPatch(ApplyPatch(f, p), q) == ApplyPatch(f, Merge(p, q))
    ensures ApplyPatch(ApplyPatch(f, p), p) == ApplyPatch(f, p)
  {
  }

  /** A user of the older record shape: contact fields on the user, the
      credential records under `RelatedCertificationStatus` (`None` when
      that property is absent). */
  datatype LegacyUser = LegacyUser(
    email: string,
    name: string,
    city: string,
    state: string,
    country: string,
    records: Option<seq<Sync.ExternalCert>>)

  function LegacyRow(u: LegacyUser, x: Sync.ExternalCert): (f: FlatCert)
    ensures f.email == u.email && f.name == u.name && f.city == u.city
    ensures f.state == u.state && f.country == u.country
    ensures x.typeName.Some? ==> f.certName == x.typeName.value
    ensures x.date.Some? ==> f.certDate == x.date.value
    ensures f.userId.None? && f.role.None?
  {
    FlatCert(u.email, u.name, u.city, u.state, u.country, x.typeName.GetOr(""), x.date.GetOr(""), None, None)
  }

  function LegacyRows(u: LegacyUser): (r: seq<FlatCert>)
    ensures u.records.None? ==> r == []
    ensures u.records.Some? ==> |r| == |u.records.value|
    ensures u.records.Some? ==> forall i :: 0 <= i < |r| ==> r[i] == LegacyRow(u, u.records.value[i])
  {
    match u.records
    case None => []
    case Some(xs) => seq(|xs|, i requires 0 <= i < |xs| => LegacyRow(u, xs[i]))
  }

  /** `flattenCerts` of the older dashboard. */
  function LegacyFlatten(users: seq<LegacyUser>): (r: seq<FlatCert>)
  {
    Seqs.FlatMap(LegacyRows, users)
  }

  /** Certification `j` of user `k` sits after the rows of the users before
      `k`; a user without credential records adds no row. */
  lemma LegacyLayout(users: seq<LegacyUser>, k: nat, j: nat)
    requires k < |users| && users[k].records.Some? && j < |users[k].records.value|
    ensures Seqs.SumLengths(LegacyRows, users[..k]) + j < |LegacyFlatten(users)|
    ensures LegacyFlatten(users)[Seqs.SumLengths(LegacyRows, users[..k]) + j]
            == LegacyRow(users[k], users[k].records.value[j])
  {
    Seqs.FlatMapAt(LegacyRows, users, k, j);
  }

  /** `Number(filter)`, the empty selection reading as 0. */
  function Selected(v: Option<int>): int
  {
    if v.Some? then v.value else 0
  }

  /** The older dashboard's test: the search looks at the person's name
      instead of the certification name, and a month or year selection
      requires both the month and the year to agree. */
  predicate LegacyMatches(cal: Calendar, f: Filters, c: FlatCert) {
    && (f.search == "" || Mentions(c.name, f.search) || Mentions(c.email, f.search))
    && MatchesCert(f, c)
    && ((f.month.None? && f.year.None?)
        || (InMonth(cal, c.certDate, Selected(f.month)) && InYear(cal, c.certDate, Selected(f.year))))
  }

  /** `filtered` of the older dashboard. */
  function LegacyFilter(cal: Calendar, f: Filters, certs: seq<FlatCert>): (r: seq<FlatCert>)
    ensures Seqs.IsSubsequence(r, certs)
    ensures forall i :: 0 <= i < |r| ==> LegacyMatches(cal, f, r[i])
  {
    Seqs.Filter((c: FlatCert) => LegacyMatches(cal, f, c), certs)
  }

  /** The older filter keeps exactly the rows that match it. */
  lemma LegacyFilterExact(cal: Calendar, f: Filters, certs: seq<FlatCert>, c: FlatCert)
    ensures c in LegacyFilter(cal, f, certs) <==> c in certs && LegacyMatches(cal, f, c)
  {
    Seqs.FilterCounts((c: FlatCert) => LegacyMatches(cal, f, c), certs);
  }

  /** In the older dashboard a year without a month keeps nothing, because
      the empty month reads as 0 and no date is in month 0; the current
      dashboard keeps the rows dated in that year (a row without a date,
      which flattening never produces, is not tested). */
  lemma YearOnlyFilterDiffers(cal: Calendar, f: Filters, certs: seq<FlatCert>)
    requires f.month.None? && f.year.Some?
    ensures LegacyFilter(cal, f, certs) == []
    ensures forall i :: 0 <= i < |FilterCerts(cal, f, certs)| && FilterCerts(cal, f, certs)[i].certDate != "" ==>
              InYear(cal, FilterCerts(cal, f, certs)[i].certDate, f.year.value)
  {
    assert forall c :: !LegacyMatches(cal, f, c);
    var a := FilterCerts(cal, f, certs);
    forall i | 0 <= i < |a| && a[i].certDate != ""
      ensures InYear(cal, a[i].certDate, f.year.value)
    {
      assert Matches(cal, f, a[i]);
    }
  }
}

=== FILE: grouping.dfy ===
/** Grouping and counting as the frontend does it with `Set`s and with
    objects used as dictionaries (`acc[k] = (acc[k] || 0) + 1`): keys in the
    order they are first met, counts of occurrences, the `n` largest counts,
    and a set of names listed in `sort()` order. */
module Grouping {
  import Strings
  import Sorting
  import Seqs

  /** `r` lists elements in the order of their first occurrences in `ks`:
      wherever a later element of `r` occurs in `ks`, every earlier one has
      already occurred. */
  ghost predicate FirstSeenOrder<K>(ks: seq<K>, r: seq<K>) {
    forall i, j, b :: 0 <= i < j < |r| && 0 <= b < |ks| && ks[b] == r[j] ==> r[i] in ks[..b]
  }

  /** The distinct elements of `ks`, in order of first occurrence. */
  function Dedup<K(==,!new)>(ks: seq<K>): (r: seq<K>)
    ensures forall x :: x in r <==> x in ks
    ensures forall i, j :: 0 <= i < j < |r| ==> r[i] != r[j]
    ensures FirstSeenOrder(ks, r)
    ensures |r| <= |ks|
    decreases |ks|
  {
    if |ks| == 0 then []
    else
      var n := |ks| - 1;
      var d := Dedup(ks[..n]);
      assert ks == ks[..n] + [ks[n]];
      FirstSeenStep(ks, d);
      if ks[n] in d then d else d + [ks[n]]
  }

  /** Appending the last key of `ks`, when new, to the first-seen order of
      the keys before it keeps the order first-seen. */
  lemma FirstSeenStep<K>(ks: seq<K>, d: seq<K>)
    requires |ks| > 0
    requires forall x :: x in d <==> x in ks[..|ks| - 1]
    requires FirstSeenOrder(ks[..|ks| - 1], d)
    ensures FirstSeenOrder(ks, if ks[|ks| - 1] in d then d else d + [ks[|ks| - 1]])
  {
    var n := |ks| - 1;
    var p := ks[..n];
    var r := if ks[n] in d then d else d + [ks[n]];
    forall i, j, b | 0 <= i < j < |r| && 0 <= b < |ks| && ks[b] == r[j]
      ensures r[i] in ks[..b]
    {
      assert r[i] == d[i] && d[i] in d;
      if b < n {
        assert p[b] == ks[b] && p[..b] == ks[..b];
        assert ks[b] in p;
        assert j < |d| && r[j] == d[j];
      } else {
        assert ks[..b] == p;
      }
    }
  }

  datatype Entry<K> = Entry(key: K, count: nat)

  /** `acc[k] = (acc[k] || 0) + 1` on a dictionary held as its entries. */
  function Bump<K(==)>(es: seq<Entry<K>>, k: K): (r: seq<Entry<K>>)
    requires forall i, j :: 0 <= i < j < |es| ==> es[i].key != es[j].key
    ensures |es| <= |r| <= |es| + 1
    ensures forall i :: 0 <= i < |es| ==> r[i].key == es[i].key
    ensures forall i :: 0 <= i < |es| && es[i].key != k ==> r[i].count == es[i].count
    ensures forall i :: 0 <= i < |es| && es[i].key == k ==> r[i].count == es[i].count + 1
    ensures (forall i :: 0 <= i < |es| ==> es[i].key != k) ==> |r| == |es| + 1 && r[|es|] == Entry(k, 1)
    ensures (exists i :: 0 <= i < |es| && es[i].key == k) ==> |r| == |es|
  {
    if |es| == 0 then [Entry(k, 1)]
    else if es[0].key == k then [es[0].(count := es[0].count + 1)] + es[1..]
    else
      var tail := es[1..];
      assert forall i :: 1 <= i < |es| ==> tail[i - 1] == es[i];
      var rest := Bump(tail, k);
      var r := [es[0]] + rest;
      assert forall i :: 1 <= i < |r| ==> r[i] == rest[i - 1];
      r
  }

  /** How often each element of `ks` occurs, keys in order of first
      occurrence. */
  function TallyOf<K(==,!new)>(ks: seq<K>): (r: seq<Entry<K>>)
    ensures |r| == |Dedup(ks)|
    ensures forall i :: 0 <= i < |r| ==> r[i].key == Dedup(ks)[i] && r[i].count == multiset(ks)[r[i].key]
    decreases |ks|
  {
    if |ks| == 0 then []
    else
      var n := |ks| - 1;
      var es := TallyOf(ks[..n]);
      TallyStep(ks, es);
      Bump(es, ks[n])
  }

  /** One more element: bumping its entry keeps the tally exact. */
  lemma TallyStep<K(!new)>(ks: seq<K>, es: seq<Entry<K>>)
    requires |ks| > 0
    requires |es| == |Dedup(ks[..|ks| - 1])|
    requires forall i :: 0 <= i < |es| ==>
               es[i].key == Dedup(ks[..|ks| - 1])[i] && es[i].count == multiset(ks[..|ks| - 1])[es[i].key]
    ensures forall i, j :: 0 <= i < j < |es| ==> es[i].key != es[j].key
    ensures var r := Bump(es, ks[|ks| - 1]);
            && |r| == |Dedup(ks)|
            && forall i :: 0 <= i < |r| ==> r[i].key == Dedup(ks)[i] && r[i].count == multiset(ks)[r[i].key]
  {
    var n := |ks| - 1;
    var x := ks[n];
    var d := Dedup(ks[..n]);
    assert ks == ks[..n] + [x];
    assert multiset(ks) == multiset(ks[..n]) + multiset{x};
    var r := Bump(es, x);
    if x in d {
      var j :| 0 <= j < |d| && d[j] == x;
      assert es[j].key == x;
      assert Dedup(ks) == d;
      forall i | 0 <= i < |r|
        ensures r[i].key == d[i] && r[i].count == multiset(ks)[r[i].key]
      {
      }
    } else {
      assert forall i :: 0 <= i < |es| ==> es[i].key != x;
      assert x !in ks[..n];
      assert Dedup(ks) == d + [x];
      forall i | 0 <= i < |r|
        ensures r[i].key == Dedup(ks)[i] && r[i].count == multiset(ks)[r[i].key]
      {
        if i == |es| {
          assert multiset(ks[..n])[x] == 0;
        }
      }
    }
  }

  /** A tally lists its keys in order of first occurrence: wherever a later
      key occurs among the counted keys, every earlier key has already
      occurred. */
  lemma TallyFirstSeen<K(!new)>(ks: seq<K>)
    ensures forall i, j, b :: 0 <= i < j < |TallyOf(ks)| && 0 <= b < |ks| && ks[b] == TallyOf(ks)[j].key ==>
              TallyOf(ks)[i].key in ks[..b]
  {
    var r := TallyOf(ks);
    var d := Dedup(ks);
    assert forall i :: 0 <= i < |r| ==> r[i].key == d[i];
  }

  /** The keys of a tally are distinct and are exactly the counted elements,
      and every count is positive. */
  lemma TallyKeys<K(!new)>(ks: seq<K>)
    ensures forall i, j :: 0 <= i < j < |TallyOf(ks)| ==> TallyOf(ks)[i].key != TallyOf(ks)[j].key
    ensures forall k :: k in ks <==> exists i :: 0 <= i < |TallyOf(ks)| && TallyOf(ks)[i].key == k
    ensures forall i :: 0 <= i < |TallyOf(ks)| ==> TallyOf(ks)[i].count > 0
  {
    var r := TallyOf(ks);
    var d := Dedup(ks);
    forall k | k in ks
      ensures exists i :: 0 <= i < |r| && r[i].key == k
    {
      var i :| 0 <= i < |d| && d[i] == k;
      assert r[i].key == k;
    }
    forall i | 0 <= i < |r|
      ensures r[i].count > 0
    {
      assert d[i] in d;
    }
  }

  /** Entries taken from a tally, each at most once, carry distinct keys,
      each counted element with its number of occurrences. */
  lemma TallyEntries<K(!new)>(ks: seq<K>, r: seq<Entry<K>>)
    requires multiset(r) <= multiset(TallyOf(ks))
    ensures forall i :: 0 <= i < |r| ==> r[i].key in ks && r[i].count == multiset(ks)[r[i].key] && r[i].count > 0
    ensures forall i, j :: 0 <= i < j < |r| ==> r[i].key != r[j].key
  {
    var t := TallyOf(ks);
    TallyKeys(ks);
    forall i | 0 <= i < |r|
      ensures r[i].key in ks && r[i].count == multiset(ks)[r[i].key] && r[i].count > 0
    {
      assert r[i] in multiset(t);
      var k :| 0 <= k < |t| && t[k] == r[i];
      assert t[k].key in Dedup(ks);
    }
    SubKeysDistinct(t, r);
  }

  /** Entries drawn, each at most once, from entries with distinct keys
      have distinct keys. */
  lemma SubKeysDistinct<K>(t: seq<Entry<K>>, r: seq<Entry<K>>)
    requires multiset(r) <= multiset(t)
    requires forall i, j :: 0 <= i < j < |t| ==> t[i].key != t[j].key
    ensures forall i, j :: 0 <= i < j < |r| ==> r[i].key != r[j].key
  {
    assert forall a, b :: 0 <= a < b < |t| ==> t[a] != t[b];
    forall i, j | 0 <= i < j < |r|
      ensures r[i].key != r[j].key
    {
      SubDistinctAt(t, r, i, j);
      assert r[i] in multiset(t) && r[j] in multiset(t);
      var a :| 0 <= a < |t| && t[a] == r[i];
      var b :| 0 <= b < |t| && t[b] == r[j];
    }
  }

  lemma SubDistinctAt<K>(t: seq<Entry<K>>, r: seq<Entry<K>>, i: nat, j: nat)
    requires multiset(r) <= multiset(t)
    requires forall a, b :: 0 <= a < b < |t| ==> t[a] != t[b]
    requires i < j < |r|
    ensures r[i] != r[j]
  {
    TwiceCounted(r, i, j);
    DistinctOnce(t, r[i]);
  }

  /** An element at two positions occurs at least twice. */
  lemma TwiceCounted<T>(r: seq<T>, i: nat, j: nat)
    requires i < j < |r|
    ensures r[i] == r[j] ==> multiset(r)[r[i]] >= 2
  {
    var a := r[..j];
    assert r == a + r[j..];
    assert r[i] in a;
    assert r[j..][0] == r[j];
    assert multiset(r) == multiset(a) + multiset(r[j..]);
  }

  /** A reordering of a tally still lists every counted element. */
  lemma TallyCovers<K(!new)>(ks: seq<K>, r: seq<Entry<K>>)
    requires multiset(r) == multiset(TallyOf(ks))
    ensures forall k :: k in ks ==> exists i :: 0 <= i < |r| && r[i].key == k
  {
    var t := TallyOf(ks);
    TallyKeys(ks);
    forall k | k in ks
      ensures exists i :: 0 <= i < |r| && r[i].key == k
    {
      var j :| 0 <= j < |t| && t[j].key == k;
      assert t[j] in multiset(r);
      var i :| 0 <= i < |r| && r[i] == t[j];
    }
  }

  /** Sum of the counts. */
  function Total<K>(es: seq<Entry<K>>): nat
  {
    if |es| == 0 then 0 else es[0].count + Total(es[1..])
  }

  lemma {:induction false} TotalBump<K>(es: seq<Entry<K>>, k: K)
    requires forall i, j :: 0 <= i < j < |es| ==> es[i].key != es[j].key
    ensures Total(Bump(es, k)) == Total(es) + 1
  {
    if |es| > 0 && es[0].key != k {
      TotalBump(es[1..], k);
      assert Bump(es, k)[1..] == Bump(es[1..], k);
    } else if |es| > 0 {
      assert Bump(es, k)[1..] == es[1..];
    }
  }

  /** The counts of a tally add up to the number of counted elements. */
  lemma {:induction false} TallyTotal<K(!new)>(ks: seq<K>)
    ensures Total(TallyOf(ks)) == |ks|
    decreases |ks|
  {
    if |ks| > 0 {
      var n := |ks| - 1;
      TallyTotal(ks[..n]);
      TallyKeys(ks[..n]);
      TotalBump(TallyOf(ks[..n]), ks[n]);
    }
  }

  lemma {:induction false} TotalInsert<K(!new)>(cmp: (Entry<K>, Entry<K>) -> int, e: Entry<K>, es: seq<Entry<K>>)
    ensures Total(Sorting.Insert(cmp, e, es)) == e.count + Total(es)
  {
    if |es| > 0 && cmp(e, es[0]) > 0 {
      TotalInsert(cmp, e, es[1..]);
    }
  }

  /** Reordering the entries does not change the sum of their counts. */
  lemma {:induction false} TotalSortBy<K(!new)>(cmp: (Entry<K>, Entry<K>) -> int, es: seq<Entry<K>>)
    ensures Total(Sorting.SortBy(cmp, es)) == Total(es)
  {
    if |es| > 0 {
      TotalSortBy(cmp, es[1..]);
      TotalInsert(cmp, es[0], Sorting.SortBy(cmp, es[1..]));
    }
  }

  /** The comparator `(a, b) => count(b) - count(a)`: larger counts first. */
  function ByCountDescending<T>(count: T -> nat): (T, T) -> int
  {
    (a: T, b: T) => count(b) - count(a)
  }

  /** `xs.sort((a, b) => count(b) - count(a)).slice(0, n)`: the `n` elements
      with the largest counts, ties kept in their original order. */
  function TopN<T(!new)>(count: T -> nat, xs: seq<T>, n: nat): (r: seq<T>)
    ensures |r| <= n && |r| <= |xs|
    ensures |xs| >= n ==> |r| == n
    ensures multiset(r) <= multiset(xs)
  {
    var sorted := Sorting.SortBy(ByCountDescending(count), xs);
    var r := Seqs.Take(sorted, n);
    assert sorted == r + sorted[|r|..];
    assert multiset(sorted) == multiset(r) + multiset(sorted[|r|..]);
    r
  }

  /** Each element has a count no smaller than any later one. */
  ghost predicate NonIncreasing<T>(count: T -> nat, s: seq<T>) {
    forall i, j :: 0 <= i < j < |s| ==> count(s[i]) >= count(s[j])
  }

  /** Sorting by descending count lists the elements by non-increasing
      count. */
  lemma ByCountSorted<T(!new)>(count: T -> nat, xs: seq<T>)
    ensures NonIncreasing(count, Sorting.SortBy(ByCountDescending(count), xs))
  {
    var cmp := ByCountDescending(count);
    assert forall x, y :: cmp(x, y) == count(y) - count(x);
    Sorting.SortByIsSorted(cmp, xs);
  }

  /** The top `n` are listed by non-increasing count, and nothing left out
      has a larger count than anything kept. */
  lemma TopNOrdered<T(!new)>(count: T -> nat, xs: seq<T>, n: nat)
    ensures NonIncreasing(count, TopN(count, xs, n))
    ensures var r := TopN(count, xs, n);
            forall x :: x in xs && x !in r ==> forall i :: 0 <= i < |r| ==> count(r[i]) >= count(x)
  {
    var sorted := Sorting.SortBy(ByCountDescending(count), xs);
    ByCountSorted(count, xs);
    var r := TopN(count, xs, n);
    assert r == sorted[..|r|];
    forall x | x in xs && x !in r
      ensures forall i :: 0 <= i < |r| ==> count(r[i]) >= count(x)
    {
      TopNLeftOut(count, xs, n, x);
    }
  }

  /** An element the top `n` leave out has a count no larger than any of
      theirs. */
  lemma TopNLeftOut<T(!new)>(count: T -> nat, xs: seq<T>, n: nat, x: T)
    requires x in xs && x !in TopN(count, xs, n)
    ensures forall i :: 0 <= i < |TopN(count, xs, n)| ==> count(TopN(count, xs, n)[i]) >= count(x)
  {
    var sorted := Sorting.SortBy(ByCountDescending(count), xs);
    ByCountSorted(count, xs);
    var r := TopN(count, xs, n);
    assert r == sorted[..|r|];
    assert x in multiset(sorted);
    var j :| 0 <= j < |sorted| && sorted[j] == x;
    assert forall k :: 0 <= k < |r| ==> sorted[k] in r;
    forall i | 0 <= i < |r|
      ensures count(r[i]) >= count(x)
    {
      assert r[i] == sorted[i];
    }
  }

  /** JavaScript's default `sort()` comparison of two strings. */
  function CompareStrings(a: string, b: string): (c: int)
    ensures c < 0 <==> Strings.Less(a, b)
    ensures c > 0 <==> Strings.Less(b, a)
    ensures c == 0 <==> a == b
  {
    Strings.LessAsymmetric(a, b);
    Strings.LessTotal(a, b);
    if a == b then Strings.LessIrreflexive(a); 0
    else if Strings.Less(a, b) then -1 else 1
  }

  /** String comparison orders any sequence of strings consistently. */
  lemma CompareStringsOrders(s: seq<string>)
    ensures Sorting.Connex(CompareStrings, s)
    ensures Sorting.Transitive(CompareStrings, s)
  {
    forall x, y, z | CompareStrings(x, y) <= 0 && CompareStrings(y, z) <= 0
      ensures CompareStrings(x, z) <= 0
    {
      if x != y && y != z { Strings.LessTransitive(x, y, z); }
    }
  }

  /** A permutation of a duplicate-free sequence is duplicate-free. */
  lemma PermutationDistinct<K>(d: seq<K>, r: seq<K>)
    requires multiset(r) == multiset(d)
    requires forall i, j :: 0 <= i < j < |d| ==> d[i] != d[j]
    ensures forall i, j :: 0 <= i < j < |r| ==> r[i] != r[j]
  {
    forall i, j | 0 <= i < j < |r|
      ensures r[i] != r[j]
    {
      DistinctOnce(d, r[i]);
      assert r == r[..i] + [r[i]] + r[i + 1..j] + [r[j]] + r[j + 1..];
      assert multiset(r)[r[i]] >= multiset([r[i]] + r[i + 1..j] + [r[j]])[r[i]];
    }
  }

  /** `[...new Set(names)].sort()`: each name once, in ascending order. */
  function DistinctSorted(names: seq<string>): (r: seq<string>)
    ensures forall x :: x in r <==> x in names
    ensures forall i, j :: 0 <= i < j < |r| ==> Strings.Less(r[i], r[j])
    ensures |r| <= |names|
  {
    var d := Dedup(names);
    var r := Sorting.SortBy(CompareStrings, d);
    CompareStringsOrders(d);
    Sorting.SortByIsSorted(CompareStrings, d);
    assert forall x :: x in r <==> x in multiset(d);
    PermutationDistinct(d, r);
    SortedDistinctAscending(r);
    r
  }

  /** Sorted without repetition means strictly ascending. */
  lemma SortedDistinctAscending(r: seq<string>)
    requires Sorting.Sorted(CompareStrings, r)
    requires forall i, j :: 0 <= i < j < |r| ==> r[i] != r[j]
    ensures forall i, j :: 0 <= i < j < |r| ==> Strings.Less(r[i], r[j])
  {
    forall i, j | 0 <= i < j < |r|
      ensures Strings.Less(r[i], r[j])
    {
      var c := CompareStrings(r[i], r[j]);
      assert c <= 0;
    }
  }

  /** An element of a duplicate-free sequence occurs once. */
  lemma {:induction false} DistinctOnce<K>(d: seq<K>, x: K)
    requires forall i, j :: 0 <= i < j < |d| ==> d[i] != d[j]
    ensures multiset(d)[x] <= 1
  {
    if |d| > 0 {
      DistinctOnce(d[1..], x);
      assert d == [d[0]] + d[1..];
      assert d[0] == x ==> x !in d[1..];
    }
  }
}

=== FILE: ordering.dfy ===
/** What the sortable tables share: the value a row holds under a column
    key, and the sort state a click on a column header changes. */
module Ordering {
  import opened Wrappers

  /** A property value read off a row object by key: a string, a number,
      or `undefined` when the row has no such property. */
  datatype Value = Str(s: string) | Num(n: int) | Undefined

  /** `{ key, direction }`; `key` is `None` for `null` (no sorting). */
  datatype SortConfig = SortConfig(key: Option<string>, ascending: bool)

  const Unsorted := SortConfig(None, true)

  /** `requestSort(key)`: a click on the column already sorted ascending
      turns it descending; any other click sorts that column ascending. */
  function RequestSort(c: SortConfig, key: string): (r: SortConfig)
    ensures r.key == Some(key)
    ensures !r.ascending <==> c.key == Some(key) && c.ascending
  {
    SortConfig(Some(key), !(c.key == Some(key) && c.ascending))
  }

  /** Clicking the same header again flips the direction; clicking a new
      header always starts ascending. */
  lemma RequestSortToggles(c: SortConfig, key: string, other: string)
    requires other != key
    ensures RequestSort(RequestSort(c, key), key).ascending == !RequestSort(c, key).ascending
    ensures RequestSort(RequestSort(c, key), key).key == Some(key)
    ensures RequestSort(RequestSort(c, key), other).ascending
    ensures RequestSort(RequestSort(RequestSort(c, key), key), key) == RequestSort(c, key)
  {
  }
}

=== FILE: records.dfy ===
/** The records the tracker stores and derives: a certification, a cached
    user profile, and the flat one-row-per-certification view the frontend
    works on. Dates are strings; reading one goes through a `Calendar`. */
module Records {
  import opened Wrappers

  /** The text the frontend shows for a value it does not have. */
  const NA: string := "N/A"

  /** JavaScript's `s || fallback` on a string: the empty string (and a
      missing value, which the model also writes as "") is replaced. */
  function OrElse(s: string, fallback: string): (r: string)
    ensures s != "" ==> r == s
    ensures s == "" ==> r == fallback
  {
    if s == "" then fallback else s
  }

  /** One certification of a user. `expiresAt` is `None` for JSON `null`. */
  datatype CertRecord = CertRecord(
    provider: string,
    name: string,
    earnedAt: string,
    expiresAt: Option<string>,
    status: string,
    meta: map<string, string>)

  /** One entry of the cache, keyed by `email`. `extra` holds any other
      properties the stored JSON object carries (a `Name`, say): a spread
      copy keeps them, a freshly built entry has none. */
  datatype UserProfile = UserProfile(
    email: string,
    role: string,
    searchString: string,
    certifications: seq<CertRecord>,
    lastUpdated: Option<string>,
    extra: map<string, string>)

  /** One certification of one user, as listed on the dashboard. `userId`
      and `role` are `None` where the producing code leaves them undefined. */
  datatype FlatCert = FlatCert(
    email: string,
    name: string,
    city: string,
    state: string,
    country: string,
    certName: string,
    certDate: string,
    userId: Option<string>,
    role: Option<string>)

  /** `Date.prototype.getMonth()`: January is 0. */
  type MonthIndex = m: int | 0 <= m < 12

  datatype YearMonth = YearMonth(year: int, month: MonthIndex)

  /** The host's date handling, which depends on its time zone and locale:
      `parse` gives the local year and month of `new Date(s)`, `time` its
      time value, `format` its `toLocaleDateString()`; `None` stands for an
      invalid date. */
  datatype Calendar = Calendar(
    parse: string -> Option<YearMonth>,
    time: string -> Option<int>,
    format: string -> string)

  /** Year and month of `new Date(s)`; "" and "N/A" are never valid dates. */
  function DateOf(cal: Calendar, s: string): (r: Option<YearMonth>)
    ensures s == "" || s == NA ==> r == None
    ensures s != "" && s != NA ==> r == cal.parse(s)
  {
    if s == "" || s == NA then None else cal.parse(s)
  }

  /** `new Date(s).getFullYear()`, `None` for NaN. */
  function YearOf(cal: Calendar, s: string): (r: Option<int>)
    ensures r.Some? <==> DateOf(cal, s).Some?
    ensures r.Some? ==> r.value == DateOf(cal, s).value.year
  {
    match DateOf(cal, s)
    case Some(d) => Some(d.year)
    case None => None
  }

  /** `new Date(s).getTime()`, `None` for NaN. */
  function TimeOf(cal: Calendar, s: string): (r: Option<int>)
    ensures s == "" || s == NA ==> r == None
    ensures s != "" && s != NA ==> r == cal.time(s)
  {
    if s == "" || s == NA then None else cal.time(s)
  }
}

=== FILE: registry.dfy ===
/** The role requirement registry: for each role, the certification names a
    profile write for that role must include. A role the registry does not
    list has no requirements. */
module Registry {
  import Seqs

  /** The backend's `ROLE_REQUIREMENTS`, in its own order. */
  const RoleRequirements: map<string, seq<string>> := map[
    "Consultant" := ["Sales Cloud Consultant", "Service Cloud Consultant", "Platform App Builder"],
    "Analyst" := ["Administrator", "Platform Developer I", "Data Cloud Consultant"],
    "Architect" := ["Application Architect", "System Architect", "Identity and Access Management Architect"],
    "Developer" := ["Platform Developer I", "Platform Developer II", "JavaScript Developer I"],
    "Admin" := ["Administrator", "Advanced Administrator"]
  ]

  /** `config[role] || []`: a role without an entry requires nothing. */
  function RequirementsFor(config: map<string, seq<string>>, role: string): (r: seq<string>)
    ensures role in config ==> r == config[role]
    ensures role !in config ==> r == []
  {
    if role in config then config[role] else []
  }

  /** `required.filter(r => !names.includes(r))`: the required names that
      `names` lacks, in the order the requirement list gives them. */
  function Missing(required: seq<string>, names: seq<string>): (r: seq<string>)
    ensures Seqs.IsSubsequence(r, required)
    ensures forall n :: n in r <==> n in required && n !in names
    ensures |r| == 0 <==> forall n :: n in required ==> n in names
  {
    var r := Seqs.Filter(n => n !in names, required);
    Seqs.FilterCounts(n => n !in names, required);
    assert |r| > 0 ==> r[0] in r;
    r
  }

  /** Every registered role has at least one requirement, and no role lists
      a name twice. */
  lemma RegistryWellFormed()
    ensures forall role :: role in RoleRequirements ==> |RoleRequirements[role]| > 0
    ensures forall role :: role in RoleRequirements ==>
              forall i, j :: 0 <= i < j < |RoleRequirements[role]| ==>
                RoleRequirements[role][i] != RoleRequirements[role][j]
  {
  }
}

=== FILE: reports.dfy ===
/** The advanced reports: certifications per year, the five most frequent
    certification names, certifications per month of a chosen year, and
    the ten people with the most certifications, overall and in the chosen
    year. */
module Reports {
  import opened Wrappers
  import opened Records
  import Seqs
  import Sorting
  import Grouping

  /** The row's date reads as a date in year `y`. */
  predicate DatedIn(cal: Calendar, y: int, c: FlatCert) {
    YearOf(cal, c.certDate) == Some(y)
  }

  /** The years of the rows whose date reads as a date, in row order. */
  function Years(cal: Calendar, certs: seq<FlatCert>): (r: seq<int>)
    ensures |r| <= |certs|
    ensures forall y :: y in r <==> exists i :: 0 <= i < |certs| && DatedIn(cal, y, certs[i])
  {
    if |certs| == 0 then []
    else
      var rest := Years(cal, certs[1..]);
      assert forall i :: 1 <= i < |certs| ==> certs[1..][i - 1] == certs[i];
      match YearOf(cal, certs[0].certDate)
      case Some(y) => [y] + rest
      case None => rest
  }

  /** A year occurs in `Years` once per row dated in it. */
  lemma {:induction false} YearsCount(cal: Calendar, certs: seq<FlatCert>, y: int)
    ensures multiset(Years(cal, certs))[y] == |Seqs.Filter((c: FlatCert) => DatedIn(cal, y, c), certs)|
  {
    if |certs| > 0 {
      YearsCount(cal, certs[1..], y);
      Seqs.FilterCons((c: FlatCert) => DatedIn(cal, y, c), certs);
    }
  }

  /** The rows with a readable date. */
  function Dated(cal: Calendar, certs: seq<FlatCert>): seq<FlatCert>
  {
    Seqs.Filter((c: FlatCert) => YearOf(cal, c.certDate).Some?, certs)
  }

  /** One year per dated row. */
  lemma {:induction false} YearsCountDated(cal: Calendar, certs: seq<FlatCert>)
    ensures |Years(cal, certs)| == |Dated(cal, certs)|
  {
    if |certs| > 0 {
      YearsCountDated(cal, certs[1..]);
    }
  }

  function ByYear(a: Grouping.Entry<int>, b: Grouping.Entry<int>): int
  {
    a.key - b.key
  }

  /** `certsByYearData`: the year tally sorted by year. */
  function CertsByYear(cal: Calendar, certs: seq<FlatCert>): (r: seq<Grouping.Entry<int>>)
    ensures multiset(r) == multiset(Grouping.TallyOf(Years(cal, certs)))
  {
    Sorting.SortBy(ByYear, Grouping.TallyOf(Years(cal, certs)))
  }

  /** The years are listed once each, in ascending order. */
  lemma CertsByYearAscending(cal: Calendar, certs: seq<FlatCert>)
    ensures var r := CertsByYear(cal, certs);
            forall i, j :: 0 <= i < j < |r| ==> r[i].key < r[j].key
  {
    var t := Grouping.TallyOf(Years(cal, certs));
    Grouping.TallyKeys(Years(cal, certs));
    assert Sorting.Connex(ByYear, t) && Sorting.Transitive(ByYear, t);
    Sorting.SortByIsSorted(ByYear, t);
    DistinctKeysAscending(t, CertsByYear(cal, certs));
  }

  /** Each listed year carries the number of rows dated in it, and every
      year some row is dated in is listed. */
  lemma CertsByYearCounts(cal: Calendar, certs: seq<FlatCert>)
    ensures var r := CertsByYear(cal, certs);
            forall i :: 0 <= i < |r| ==> r[i].count == multiset(Years(cal, certs))[r[i].key] && r[i].count > 0
    ensures var r := CertsByYear(cal, certs);
            forall i :: 0 <= i < |r| ==> r[i].count == |Seqs.Filter((c: FlatCert) => DatedIn(cal, r[i].key, c), certs)|
    ensures var r := CertsByYear(cal, certs);
            forall y :: y in Years(cal, certs) <==> exists i :: 0 <= i < |r| && r[i].key == y
  {
    var ys := Years(cal, certs);
    var r := CertsByYear(cal, certs);
    Grouping.TallyEntries(ys, r);
    Grouping.TallyCovers(ys, r);
    forall i | 0 <= i < |r|
      ensures r[i].count == |Seqs.Filter((c: FlatCert) => DatedIn(cal, r[i].key, c), certs)|
    {
      YearsCount(cal, certs, r[i].key);
    }
  }

  /** The counts add up to the number of dated rows. */
  lemma CertsByYearTotal(cal: Calendar, certs: seq<FlatCert>)
    ensures Grouping.Total(CertsByYear(cal, certs)) == |Dated(cal, certs)|
  {
    var ys := Years(cal, certs);
    Grouping.TallyTotal(ys);
    Grouping.TotalSortBy(ByYear, Grouping.TallyOf(ys));
    YearsCountDated(cal, certs);
  }

  /** A sorted permutation of entries with distinct keys has strictly
      ascending keys. */
  lemma DistinctKeysAscending(t: seq<Grouping.Entry<int>>, r: seq<Grouping.Entry<int>>)
    requires multiset(r) == multiset(t)
    requires forall i, j :: 0 <= i < j < |t| ==> t[i].key != t[j].key
    requires Sorting.Sorted(ByYear, r)
    ensures forall i, j :: 0 <= i < j < |r| ==> r[i].key < r[j].key
  {
    assert forall i, j :: 0 <= i < j < |t| ==> t[i] != t[j];
    Grouping.PermutationDistinct(t, r);
    forall i, j | 0 <= i < j < |r|
      ensures r[i].key < r[j].key
    {
      assert ByYear(r[i], r[j]) <= 0;
      assert r[i] in multiset(t) && r[j] in multiset(t);
    }
  }

  /** Names counted by the top-certifications report: "N/A" and the empty
      name are skipped. */
  function CountedNames(certs: seq<FlatCert>): (r: seq<string>)
    ensures forall i :: 0 <= i < |r| ==> r[i] != "" && r[i] != NA
    ensures |r| <= |certs|
  {
    if |certs| == 0 then []
    else
      var rest := CountedNames(certs[1..]);
      if certs[0].certName != "" && certs[0].certName != NA then [certs[0].certName] + rest else rest
  }

  /** No counted name is empty or "N/A". */
  lemma CountedNamesValid(certs: seq<FlatCert>, name: string)
    requires name in CountedNames(certs)
    ensures name != "" && name != NA
  {
  }

  /** How often `name` occurs among the rows. */
  function NameCount(certs: seq<FlatCert>, name: string): nat
  {
    if |certs| == 0 then 0
    else (if certs[0].certName == name then 1 else 0) + NameCount(certs[1..], name)
  }

  /** Every counted name is counted as often as it occurs. */
  lemma {:induction false} CountedNamesCount(certs: seq<FlatCert>, name: string)
    requires name != "" && name != NA
    ensures multiset(CountedNames(certs))[name] == NameCount(certs, name)
  {
    if |certs| > 0 {
      CountedNamesCount(certs[1..], name);
    }
  }

  function EntryCount<K>(e: Grouping.Entry<K>): nat
  {
    e.count
  }

  /** `topCertsData`: the five most frequent counted names. */
  function TopCerts(certs: seq<FlatCert>): (r: seq<Grouping.Entry<string>>)
    ensures |r| <= 5
    ensures multiset(r) <= multiset(Grouping.TallyOf(CountedNames(certs)))
  {
    Grouping.TopN(EntryCount, Grouping.TallyOf(CountedNames(certs)), 5)
  }

  /** The top names are distinct, never "N/A" or empty, and each is listed
      with its number of occurrences. */
  lemma TopCertsCounts(certs: seq<FlatCert>)
    ensures var r := TopCerts(certs);
            forall i :: 0 <= i < |r| ==> r[i].key != NA && r[i].key != "" && r[i].count == NameCount(certs, r[i].key)
    ensures var r := TopCerts(certs);
            forall i, j :: 0 <= i < j < |r| ==> r[i].key != r[j].key
  {
    var names := CountedNames(certs);
    var r := TopCerts(certs);
    Grouping.TallyEntries(names, r);
    forall i | 0 <= i < |r|
      ensures r[i].key != NA && r[i].key != "" && r[i].count == NameCount(certs, r[i].key)
    {
      CountedNamesValid(certs, r[i].key);
      CountedNamesCount(certs, r[i].key);
    }
  }

  /** The top names come by non-increasing count, and no name left out
      occurs more often than a listed one. */
  lemma TopCertsOrdered(certs: seq<FlatCert>)
    ensures var r := TopCerts(certs);
            forall i, j :: 0 <= i < j < |r| ==> r[i].count >= r[j].count
    ensures var r := TopCerts(certs);
            forall e :: e in Grouping.TallyOf(CountedNames(certs)) && e !in r ==>
              forall i :: 0 <= i < |r| ==> r[i].count >= e.count
  {
    Grouping.TopNOrdered(EntryCount, Grouping.TallyOf(CountedNames(certs)), 5);
  }

  /** `certsByMonthData` for `year`: twelve buckets, January first, each
      counting the rows dated in that month of `year`. */
  function MonthBuckets(cal: Calendar, year: int, certs: seq<FlatCert>): (r: seq<nat>)
    ensures |r| == 12
    ensures forall m :: 0 <= m < 12 ==> r[m] == MonthCount(cal, year, m, certs)
  {
    if |certs| == 0 then seq(12, _ => 0)
    else
      var b := MonthBuckets(cal, year, certs[1..]);
      match DateOf(cal, certs[0].certDate)
      case Some(d) =>
        if d.year == year then b[d.month := b[d.month] + 1] else b
      case None => b
  }

  /** Rows dated in month `m` (0 for January) of `year`. */
  function MonthCount(cal: Calendar, year: int, m: int, certs: seq<FlatCert>): nat
  {
    if |certs| == 0 then 0
    else
      var d := DateOf(cal, certs[0].certDate);
      (if d.Some? && d.value.year == year && d.value.month == m then 1 else 0)
      + MonthCount(cal, year, m, certs[1..])
  }

  function Sum(s: seq<nat>): nat
  {
    if |s| == 0 then 0 else s[0] + Sum(s[1..])
  }

  lemma {:induction false} SumBump(s: seq<nat>, m: nat)
    requires m < |s|
    ensures Sum(s[m := s[m] + 1]) == Sum(s) + 1
  {
    if m > 0 {
      SumBump(s[1..], m - 1);
      assert s[m := s[m] + 1][1..] == s[1..][m - 1 := s[m] + 1];
    }
  }

  /** The twelve buckets together hold every row dated in `year`. */
  lemma {:induction false} MonthBucketsTotal(cal: Calendar, year: int, certs: seq<FlatCert>)
    ensures Sum(MonthBuckets(cal, year, certs)) == |InYear(cal, year, certs)|
  {
    if |certs| == 0 {
      assert Sum(seq(12, _ => 0)) == 0 by {
        var z: seq<nat> := seq(12, _ => 0);
        assert forall k :: 0 <= k <= 12 ==> Sum(z[k..]) == 0 by {
          forall k | 0 <= k <= 12
            ensures Sum(z[k..]) == 0
          {
            ZeroSum(z, k);
          }
        }
        assert z[0..] == z;
      }
    } else {
      MonthBucketsTotal(cal, year, certs[1..]);
      var d := DateOf(cal, certs[0].certDate);
      if d.Some? && d.value.year == year {
        SumBump(MonthBuckets(cal, year, certs[1..]), d.value.month);
      }
    }
  }

  lemma {:induction false} ZeroSum(z: seq<nat>, k: nat)
    requires k <= |z| && forall i :: 0 <= i < |z| ==> z[i] == 0
    ensures Sum(z[k..]) == 0
    decreases |z| - k
  {
    if k < |z| {
      ZeroSum(z, k + 1);
      assert z[k..][1..] == z[k + 1..];
    }
  }

  /** The rows dated in `year`. */
  function InYear(cal: Calendar, year: int, certs: seq<FlatCert>): seq<FlatCert>
  {
    Seqs.Filter((c: FlatCert) => DatedIn(cal, year, c), certs)
  }

  /** One line of the person reports. */
  datatype Person = Person(name: string, email: string, count: nat)

  function RowEmails(certs: seq<FlatCert>): (r: seq<string>)
    ensures |r| == |certs|
    ensures forall i :: 0 <= i < |certs| ==> r[i] == certs[i].email
  {
    seq(|certs|, i requires 0 <= i < |certs| => certs[i].email)
  }

  /** The emails of a non-empty list: the first row's, then the others'. */
  lemma RowEmailsCons(certs: seq<FlatCert>)
    requires |certs| > 0
    ensures RowEmails(certs) == [certs[0].email] + RowEmails(certs[1..])
  {
  }

  /** Index of the first row of `email`. */
  function FirstRow(certs: seq<FlatCert>, email: string): (r: Option<nat>)
    ensures r.Some? ==> r.value < |certs| && certs[r.value].email == email
    ensures r.Some? ==> forall j :: 0 <= j < r.value ==> certs[j].email != email
    ensures r.None? <==> forall j :: 0 <= j < |certs| ==> certs[j].email != email
  {
    if |certs| == 0 then None
    else if certs[0].email == email then Some(0)
    else match FirstRow(certs[1..], email)
      case Some(i) => Some(i + 1)
      case None => None
  }

  /** The person of `email`, named after the first row of that email. */
  function PersonOf(certs: seq<FlatCert>, email: string, count: nat): (p: Person)
    ensures p.email == email && p.count == count
  {
    match FirstRow(certs, email)
    case Some(k) => Person(certs[k].name, email, count)
    case None => Person("", email, count)
  }

  /** `Object.values(personCertCounts)`: one person per email, in order of
      first appearance. */
  function Persons(certs: seq<FlatCert>): (r: seq<Person>)
    ensures |r| == |Grouping.TallyOf(RowEmails(certs))|
  {
    var t := Grouping.TallyOf(RowEmails(certs));
    seq(|t|, i requires 0 <= i < |t| => PersonOf(certs, t[i].key, t[i].count))
  }

  /** Each person's count is the number of rows of their email, and
      emails are listed once each. */
  lemma PersonsCounts(certs: seq<FlatCert>)
    ensures var r := Persons(certs);
            forall i :: 0 <= i < |r| ==> r[i].email in RowEmails(certs) && r[i].count == multiset(RowEmails(certs))[r[i].email]
    ensures var r := Persons(certs);
            forall i, j :: 0 <= i < j < |r| ==> r[i].email != r[j].email
  {
    var es := RowEmails(certs);
    var t := Grouping.TallyOf(es);
    Grouping.TallyEntries(es, t);
    var r := Persons(certs);
    forall i | 0 <= i < |r|
      ensures r[i].email == t[i].key && r[i].count == t[i].count
    {
    }
  }

  /** Each person is named after the first row of their email. */
  lemma PersonsNamed(certs: seq<FlatCert>)
    ensures var r := Persons(certs);
            forall i :: 0 <= i < |r| ==>
              FirstRow(certs, r[i].email).Some? && r[i].name == certs[FirstRow(certs, r[i].email).value].name
  {
    var r := Persons(certs);
    PersonsCounts(certs);
    forall i | 0 <= i < |r|
      ensures FirstRow(certs, r[i].email).Some?
    {
      var k :| 0 <= k < |certs| && RowEmails(certs)[k] == r[i].email;
    }
  }

  /** Every email of the rows has its person. */
  lemma PersonsCover(certs: seq<FlatCert>)
    ensures var r := Persons(certs);
            forall e :: e in RowEmails(certs) ==> exists i :: 0 <= i < |r| && r[i].email == e
  {
    var es := RowEmails(certs);
    var t := Grouping.TallyOf(es);
    var r := Persons(certs);
    Grouping.TallyCovers(es, t);
    forall e | e in es
      ensures exists i :: 0 <= i < |r| && r[i].email == e
    {
      var i :| 0 <= i < |t| && t[i].key == e;
      assert r[i].email == e;
    }
  }

  function PersonCount(p: Person): nat
  {
    p.count
  }

  /** The ten people with the most rows. */
  function TopPersons(certs: seq<FlatCert>): (r: seq<Person>)
    ensures |r| <= 10
    ensures multiset(r) <= multiset(Persons(certs))
  {
    Grouping.TopN(PersonCount, Persons(certs), 10)
  }

  /** The top people are listed once each, with their number of rows. */
  lemma TopPersonsCounts(certs: seq<FlatCert>)
    ensures var r := TopPersons(certs);
            forall i :: 0 <= i < |r| ==> r[i].count == multiset(RowEmails(certs))[r[i].email]
  {
    var ps := Persons(certs);
    var r := TopPersons(certs);
    var m := multiset(RowEmails(certs));
    PersonsCounts(certs);
    assert forall p :: p in ps ==> p.count == m[p.email];
    forall i | 0 <= i < |r|
      ensures r[i].count == m[r[i].email]
    {
      assert r[i] in multiset(ps);
    }
  }

  /** The top people are listed once each. */
  lemma TopPersonsDistinct(certs: seq<FlatCert>)
    ensures var r := TopPersons(certs);
            forall i, j :: 0 <= i < j < |r| ==> r[i].email != r[j].email
  {
    var ps := Persons(certs);
    var r := TopPersons(certs);
    PersonsCounts(certs);
    forall i, j | 0 <= i < j < |r|
      ensures r[i].email != r[j].email
    {
      PersonsDistinct(ps, r, i, j);
    }
  }

  /** The top people come by non-increasing count, and nobody left out has
      more rows than someone listed. */
  lemma TopPersonsOrdered(certs: seq<FlatCert>)
    ensures var r := TopPersons(certs);
            forall i, j :: 0 <= i < j < |r| ==> r[i].count >= r[j].count
    ensures var r := TopPersons(certs);
            forall p :: p in Persons(certs) && p !in r ==> forall i :: 0 <= i < |r| ==> r[i].count >= p.count
  {
    Grouping.TopNOrdered(PersonCount, Persons(certs), 10);
  }

  lemma PersonsDistinct(ps: seq<Person>, r: seq<Person>, i: nat, j: nat)
    requires multiset(r) <= multiset(ps)
    requires forall a, b :: 0 <= a < b < |ps| ==> ps[a].email != ps[b].email
    requires i < j < |r|
    ensures r[i].email != r[j].email
  {
    assert r[i] in multiset(ps) && r[j] in multiset(ps);
    var a :| 0 <= a < |ps| && ps[a] == r[i];
    var b :| 0 <= b < |ps| && ps[b] == r[j];
    assert forall a, b :: 0 <= a < b < |ps| ==> ps[a] != ps[b];
    Grouping.TwiceCounted(r, i, j);
    Grouping.DistinctOnce(ps, r[i]);
  }

  /** `topPersonsOverallData`. */
  function TopPersonsOverall(certs: seq<FlatCert>): (r: seq<Person>)
    ensures |r| <= 10
  {
    TopPersons(certs)
  }

  /** `topPersonsByYearData`: the same ranking over the rows dated in
      `year`. */
  function TopPersonsByYear(cal: Calendar, year: int, certs: seq<FlatCert>): (r: seq<Person>)
    ensures |r| <= 10
  {
    TopPersons(InYear(cal, year, certs))
  }

  /** A person's count for the year is the number of their rows dated in
      it, which is at most their overall count. */
  lemma TopPersonsByYearCounts(cal: Calendar, year: int, certs: seq<FlatCert>)
    ensures var r := TopPersonsByYear(cal, year, certs);
            forall i :: 0 <= i < |r| ==>
              && r[i].count == multiset(RowEmails(InYear(cal, year, certs)))[r[i].email]
              && r[i].count <= multiset(RowEmails(certs))[r[i].email]
  {
    var r := TopPersonsByYear(cal, year, certs);
    TopPersonsCounts(InYear(cal, year, certs));
    forall i | 0 <= i < |r|
      ensures r[i].count <= multiset(RowEmails(certs))[r[i].email]
    {
      YearCountAtMostOverall(cal, year, certs, r[i].email);
    }
  }

  /** Nobody has more certifications in one year than overall. */
  lemma YearCountAtMostOverall(cal: Calendar, year: int, certs: seq<FlatCert>, email: string)
    ensures multiset(RowEmails(InYear(cal, year, certs)))[email] <= multiset(RowEmails(certs))[email]
  {
    KeptCountAtMost((c: FlatCert) => DatedIn(cal, year, c), certs, email);
  }

  /** Keeping some of the rows keeps at most the rows of each email. */
  lemma {:induction false} KeptCountAtMost(keep: FlatCert -> bool, certs: seq<FlatCert>, email: string)
    ensures multiset(RowEmails(Seqs.Filter(keep, certs)))[email] <= multiset(RowEmails(certs))[email]
  {
    if |certs| > 0 {
      var rest := Seqs.Filter(keep, certs[1..]);
      KeptCountAtMost(keep, certs[1..], email);
      RowEmailsCons(certs);
      Seqs.FilterCons(keep, certs);
      if keep(certs[0]) {
        RowEmailsCons([certs[0]] + rest);
        assert ([certs[0]] + rest)[1..] == rest;
      }
    }
  }
}

=== FILE: scenarios.dfy ===
/** Worked examples: a small import batch, a line the import accepts
    although its email is blank, and the PEP verdict for one Admin user. */
module Scenarios {
  import opened Wrappers
  import opened Records
  import Strings
  import Seqs
  import Registry
  import CsvImport
  import Dashboard
  import Compliance
  import Cache
  import Stats
  import Reports
  import Sorting
  import Ordering

  /** Three comma-free fields joined by commas split back into them. */
  lemma SplitThree(a: string, b: string, c: string)
    requires ',' !in a && ',' !in b && ',' !in c
    ensures Strings.Split(a + "," + b + "," + c, ',') == [a, b, c]
  {
    Strings.SplitPlain(c, ',');
    Strings.SplitAfterPlain(b, c, ',');
    assert b + "," + c == b + [','] + c;
    Strings.SplitAfterPlain(a, b + "," + c, ',');
    assert a + "," + b + "," + c == a + [','] + (b + "," + c);
  }

  /** A line of three non-empty comma-free fields is accepted; a line
      without any comma is not. */
  lemma LineShapes(a: string, b: string, c: string, bad: string)
    requires ',' !in a && ',' !in b && ',' !in c && ',' !in bad
    ensures a != "" && b != "" && c != "" ==> CsvImport.Accepted(a + "," + b + "," + c)
    ensures !CsvImport.Accepted(bad)
    ensures CsvImport.Field(a + "," + b + "," + c, 0) == a
  {
    SplitThree(a, b, c);
    Strings.SplitPlain(bad, ',');
  }

  /** A batch with one malformed line between two good ones (as in
      `a@x.com,Admin,search1`, `bad-row`, `b@x.com,Analyst,search2`): three
      lines processed, two accepted, and the malformed one reported as line
      3 of the upload, the header being line 1. */
  lemma ImportBatchExample(a: string, b: string, c: string, bad: string, d: string, e: string, f: string)
    requires a != "" && b != "" && c != "" && d != "" && e != "" && f != ""
    requires ',' !in a && ',' !in b && ',' !in c && ',' !in bad
    requires ',' !in d && ',' !in e && ',' !in f
    ensures CsvImport.Report([a + "," + b + "," + c, bad, d + "," + e + "," + f])
            == CsvImport.ImportReport(3, 2, [CsvImport.RowError(3, CsvImport.InvalidRow)])
  {
    var l1, l2, l3 := a + "," + b + "," + c, bad, d + "," + e + "," + f;
    LineShapes(a, b, c, bad);
    LineShapes(d, e, f, bad);
    var lines := [l1, l2, l3];
    assert lines[..2] == [l1, l2] && [l1, l2][..1] == [l1] && [l1][..0] == [];
    assert CsvImport.Report([l1]) == CsvImport.ImportReport(1, 1, []);
    assert CsvImport.Report([l1, l2]) == CsvImport.ImportReport(2, 1, [CsvImport.RowError(3, CsvImport.InvalidRow)]);
  }

  /** The import tests the fields before trimming them: a line whose email
      field is white space only is accepted, and the profile it stores has
      an empty email. */
  lemma BlankEmailAccepted(cache: seq<UserProfile>, blank: string, role: string, search: string)
    requires blank != "" && forall k :: 0 <= k < |blank| ==> blank[k] == ' '
    requires role != "" && search != "" && ',' !in role && ',' !in search
    ensures CsvImport.Accepted(blank + "," + role + "," + search)
    ensures Strings.Trim(CsvImport.Field(blank + "," + role + "," + search, 0)) == ""
  {
    assert ',' !in blank by {
      assert forall k :: 0 <= k < |blank| ==> blank[k] != ',';
    }
    LineShapes(blank, role, search, "");
    var t := Strings.Trim(blank);
    var i :| Strings.StrippedAt(blank, t, i);
  }

  /** The dashboard rows of a single user are that user's rows. */
  lemma AllCertsOfOne(u: UserProfile)
    ensures Dashboard.AllCerts([u]) == Dashboard.Rows(u)
  {
    assert [u][..0] == [];
  }

  /** On a dashboard holding only `u`, the rows compared for `u` are all of
      `u`'s rows. */
  lemma OwnRows(u: UserProfile)
    requires u.email != ""
    ensures Compliance.UserCerts(Dashboard.AllCerts([u]), u) == Dashboard.Rows(u)
  {
    AllCertsOfOne(u);
    Seqs.FilterKeepsAll((c: FlatCert) => c.email == u.email, Dashboard.Rows(u));
  }

  /** The Admin role requires Administrator and Advanced Administrator. An
      Admin holding Administrator twice, both earned in 2024, has two
      certifications that year but lacks Advanced Administrator, so is not
      PEP compliant for 2024. */
  lemma AdminMissingMandatory(cal: Calendar, columns: seq<string>, showDates: bool, u: UserProfile, d1: string, d2: string)
    requires u.email != "" && u.role == "Admin"
    requires u.certifications == [CertRecord("Salesforce", "Administrator", d1, None, "active", map[]),
                                  CertRecord("Salesforce", "Administrator", d2, None, "active", map[])]
    requires YearOf(cal, d1) == Some(2024) && YearOf(cal, d2) == Some(2024)
    ensures Compliance.RowOf(cal, Dashboard.AllCerts([u]), Registry.RoleRequirements, columns,
                             Compliance.ReportFilters("", 2024), showDates, u).certsThisYear == 2
    ensures Compliance.RowOf(cal, Dashboard.AllCerts([u]), Registry.RoleRequirements, columns,
                             Compliance.ReportFilters("", 2024), showDates, u).pepCompliant == "No"
  {
    OwnRows(u);
    var rows := Dashboard.Rows(u);
    var r0, r1 := rows[0], rows[1];
    assert rows == [r0, r1];
    assert rows[1..] == [r1] && rows[1..][1..] == [];
    assert YearOf(cal, r0.certDate) == Some(2024) && YearOf(cal, r1.certDate) == Some(2024);
    assert Reports.InYear(cal, 2024, rows) == rows by {
      Seqs.FilterKeepsAll((c: FlatCert) => Reports.DatedIn(cal, 2024, c), rows);
    }
    var names := Stats.CertNames(rows);
    assert names == ["Administrator", "Administrator"];
    assert "Advanced Administrator" in Registry.RequirementsFor(Registry.RoleRequirements, u.role);
  }

  /** Once the Admin also holds Advanced Administrator, earned in 2023, the
      mandatory list is complete; 2024 still counts only the two
      Administrator entries, which is enough, so the user is PEP
      compliant. */
  lemma AdminCompliant(cal: Calendar, columns: seq<string>, showDates: bool, u: UserProfile,
                       d1: string, d2: string, d3: string)
    requires u.email != "" && u.role == "Admin"
    requires u.certifications == [CertRecord("Salesforce", "Administrator", d1, None, "active", map[]),
                                  CertRecord("Salesforce", "Administrator", d2, None, "active", map[]),
                                  CertRecord("Salesforce", "Advanced Administrator", d3, None, "active", map[])]
    requires YearOf(cal, d1) == Some(2024) && YearOf(cal, d2) == Some(2024) && YearOf(cal, d3) == Some(2023)
    ensures Compliance.RowOf(cal, Dashboard.AllCerts([u]), Registry.RoleRequirements, columns,
                             Compliance.ReportFilters("", 2024), showDates, u).certsThisYear == 2
    ensures Compliance.RowOf(cal, Dashboard.AllCerts([u]), Registry.RoleRequirements, columns,
                             Compliance.ReportFilters("", 2024), showDates, u).pepCompliant == "Yes"
  {
    OwnRows(u);
    var rows := Dashboard.Rows(u);
    var r0, r1, r2 := rows[0], rows[1], rows[2];
    assert rows == [r0, r1, r2];
    assert rows[1..] == [r1, r2] && rows[1..][1..] == [r2] && rows[1..][1..][1..] == [];
    assert YearOf(cal, r0.certDate) == Some(2024) && YearOf(cal, r1.certDate) == Some(2024);
    assert YearOf(cal, r2.certDate) == Some(2023);
    assert Reports.DatedIn(cal, 2024, r0) && Reports.DatedIn(cal, 2024, r1) && !Reports.DatedIn(cal, 2024, r2);
    assert Reports.InYear(cal, 2024, [r2]) == [];
    assert Reports.InYear(cal, 2024, [r1, r2]) == [r1];
    assert Reports.InYear(cal, 2024, rows) == [r0, r1];
    var names := Stats.CertNames(rows);
    assert names[0] == "Administrator" && names[2] == "Advanced Administrator";
    assert Registry.RequirementsFor(Registry.RoleRequirements, u.role) == ["Administrator", "Advanced Administrator"];
  }

  /** Sorting two report rows named Nora and Yesenia by name, ascending:
      the component's comparator puts Yesenia first (Yesenia's name starts
      with "Yes", Nora's with "No"), the corrected one puts Nora first. */
  lemma YeseniaBeforeNora(columns: seq<string>, x: Compliance.Row, y: Compliance.Row)
    requires x.name == "Nora" && y.name == "Yesenia" && "name" !in columns
    requires "name" !in x.status && "name" !in y.status
    ensures Sorting.SortBy(Compliance.RowCompareAsWritten("name", true), [x, y]) == [y, x]
    ensures Sorting.SortBy(Compliance.RowCompare(columns, "name", true), [x, y]) == [x, y]
  {
    var written := Compliance.RowCompareAsWritten("name", true);
    var corrected := Compliance.RowCompare(columns, "name", true);
    assert Compliance.Column(x, "name") == Ordering.Str("Nora");
    assert Compliance.Column(y, "name") == Ordering.Str("Yesenia");
    assert Strings.StartsWith("Nora", "No") && Strings.StartsWith("Yesenia", "Yes");
    assert Strings.Less("Nora", "Yesenia");
    assert Compliance.CompareAsWritten(true, Ordering.Str("Nora"), Ordering.Str("Yesenia")) == 1;
    assert written(x, y) == 1;
    assert !Compliance.StatusColumn(columns, "name");
    assert Compliance.Compare(false, true, Ordering.Str("Nora"), Ordering.Str("Yesenia")) == -1;
    assert corrected(x, y) == -1;
    assert [x, y][1..] == [y] && [y][1..] == [];
    assert Sorting.SortBy(written, [y]) == [y] && Sorting.SortBy(corrected, [y]) == [y];
    assert Sorting.Insert(written, x, [y]) == [y] + Sorting.Insert(written, x, []);
  }
}

=== FILE: selfservice.dfy ===
/** The self-service form's editing of a certification list before it is
    submitted: add a blank record, change one field of one record, remove
    one record. */
module SelfService {
  import opened Wrappers
  import opened Records
  import Registry

  /** The blank record `addCert` appends for `role`. */
  function NewCert(roles: map<string, seq<string>>, role: string): (c: CertRecord)
    ensures var available := Registry.RequirementsFor(roles, role);
            && (|available| > 0 ==> c.name == available[0])
            && (|available| == 0 ==> c.name == "")
    ensures c.provider == "Salesforce" && c.status == "active"
    ensures c.earnedAt == "" && c.expiresAt == Some("") && c.meta == map[]
  {
    var available := Registry.RequirementsFor(roles, role);
    CertRecord("Salesforce", if |available| > 0 then available[0] else "", "", Some(""), "active", map[])
  }

  /** `addCert`: one blank record at the end. */
  function AddCert(roles: map<string, seq<string>>, role: string, certs: seq<CertRecord>): (r: seq<CertRecord>)
    ensures |r| == |certs| + 1
    ensures r[..|certs|] == certs
    ensures r[|certs|] == NewCert(roles, role)
  {
    certs + [NewCert(roles, role)]
  }

  /** The fields the form edits as text. */
  datatype CertField = Provider | Name | EarnedAt | ExpiresAt | Status

  function GetField(c: CertRecord, f: CertField): string
  {
    match f
    case Provider => c.provider
    case Name => c.name
    case EarnedAt => c.earnedAt
    case ExpiresAt => c.expiresAt.GetOr("")
    case Status => c.status
  }

  /** `{ ...c, [field]: value }`. */
  function SetField(c: CertRecord, f: CertField, v: string): (r: CertRecord)
    ensures GetField(r, f) == v
    ensures forall g :: g != f ==> GetField(r, g) == GetField(c, g)
    ensures r.expiresAt == if f == ExpiresAt then Some(v) else c.expiresAt
    ensures r.meta == c.meta
  {
    match f
    case Provider => c.(provider := v)
    case Name => c.(name := v)
    case EarnedAt => c.(earnedAt := v)
    case ExpiresAt => c.(expiresAt := Some(v))
    case Status => c.(status := v)
  }

  /** Writing back a field's own text changes nothing (for the expiry, as
      long as it is not `null`). */
  lemma SetFieldOwnValue(c: CertRecord, f: CertField)
    requires f == ExpiresAt ==> c.expiresAt.Some?
    ensures SetField(c, f, GetField(c, f)) == c
  {
  }

  /** `updateCert(idx, field, value)`: only record `idx` changes, and only
      in `field`; an index outside the list changes nothing. */
  function UpdateCert(certs: seq<CertRecord>, idx: int, f: CertField, v: string): (r: seq<CertRecord>)
    ensures |r| == |certs|
    ensures forall i :: 0 <= i < |r| && i != idx ==> r[i] == certs[i]
    ensures 0 <= idx < |certs| ==> GetField(r[idx], f) == v
    ensures 0 <= idx < |certs| ==> forall g :: g != f ==> GetField(r[idx], g) == GetField(certs[idx], g)
    ensures 0 <= idx < |certs| ==> r[idx].expiresAt == if f == ExpiresAt then Some(v) else certs[idx].expiresAt
    ensures 0 <= idx < |certs| ==> r[idx].meta == certs[idx].meta
    ensures !(0 <= idx < |certs|) ==> r == certs
  {
    seq(|certs|, i requires 0 <= i < |certs| => if i == idx then SetField(certs[i], f, v) else certs[i])
  }

  /** `removeCert(idx)`: the records whose position is not `idx`. */
  function RemoveCert(certs: seq<CertRecord>, idx: int): (r: seq<CertRecord>)
    ensures 0 <= idx < |certs| ==> r == certs[..idx] + certs[idx + 1..]
    ensures !(0 <= idx < |certs|) ==> r == certs
    decreases |certs|
  {
    if |certs| == 0 then []
    else
      var rest := RemoveCert(certs[1..], idx - 1);
      assert 0 < idx < |certs| ==> certs[1..][..idx - 1] == certs[1..idx];
      assert certs == [certs[0]] + certs[1..];
      (if idx == 0 then [] else [certs[0]]) + rest
  }

  /** Removing the record just added gives back the list before. */
  lemma RemoveUndoesAdd(roles: map<string, seq<string>>, role: string, certs: seq<CertRecord>)
    ensures RemoveCert(AddCert(roles, role, certs), |certs|) == certs
  {
    var r := AddCert(roles, role, certs);
    assert r[..|certs|] == certs;
  }

  /** Updating a field twice keeps only the second value; updating it back
      to its old text restores the record. */
  lemma UpdateCertRoundTrip(certs: seq<CertRecord>, idx: int, f: CertField, v: string, w: string)
    requires 0 <= idx < |certs| && (f == ExpiresAt ==> certs[idx].expiresAt.Some?)
    ensures UpdateCert(UpdateCert(certs, idx, f, v), idx, f, w) == UpdateCert(certs, idx, f, w)
    ensures UpdateCert(UpdateCert(certs, idx, f, v), idx, f, GetField(certs[idx], f)) == certs
  {
    var once := UpdateCert(certs, idx, f, v);
    var twice := UpdateCert(once, idx, f, w);
    assert twice[idx] == UpdateCert(certs, idx, f, w)[idx];
    var back := UpdateCert(once, idx, f, GetField(certs[idx], f));
    assert back[idx] == certs[idx];
  }
}

=== FILE: seqs.dfy ===
/** `Array.prototype.filter` and `slice`, and what "order preserved, nothing
    added" means for a sequence. */
module Seqs {

  /** `a` is `b` with some elements left out, the rest in their order. */
  predicate IsSubsequence<T(==)>(a: seq<T>, b: seq<T>)
    decreases |b|
  {
    if |a| == 0 then true
    else if |b| == 0 then false
    else if a[0] == b[0] then IsSubsequence(a[1..], b[1..])
    else IsSubsequence(a, b[1..])
  }

  lemma {:induction false} SubsequenceOfTail<T>(a: seq<T>, b: seq<T>)
    requires |b| > 0 && IsSubsequence(a, b[1..])
    ensures IsSubsequence(a, b)
    decreases |b|, 0
  {
    if |a| > 0 && a[0] == b[0] {
      DropHead(a, b[1..]);
    }
  }

  lemma {:induction false} DropHead<T>(a: seq<T>, c: seq<T>)
    requires |a| > 0 && IsSubsequence(a, c)
    ensures IsSubsequence(a[1..], c)
    decreases |c|, 1
  {
    if a[0] != c[0] {
      DropHead(a, c[1..]);
    }
    SubsequenceOfTail(a[1..], c);
  }

  /** `s.filter(keep)`. */
  function Filter<T>(keep: T -> bool, s: seq<T>): (r: seq<T>)
    ensures IsSubsequence(r, s)
    ensures forall i :: 0 <= i < |r| ==> keep(r[i])
  {
    if |s| == 0 then []
    else
      var rest := Filter(keep, s[1..]);
      if keep(s[0]) then
        [s[0]] + rest
      else
        SubsequenceOfTail(rest, s);
        rest
  }

  /** The filter keeps each kept element as often as it occurs, and nothing
      else. */
  lemma {:induction false} FilterCounts<T(!new)>(keep: T -> bool, s: seq<T>)
    ensures forall x {:trigger multiset(Filter(keep, s))[x]} ::
              multiset(Filter(keep, s))[x] == if keep(x) then multiset(s)[x] else 0
    ensures forall x {:trigger x in Filter(keep, s)} :: x in Filter(keep, s) <==> x in s && keep(x)
  {
    if |s| > 0 {
      FilterCounts(keep, s[1..]);
      assert s == [s[0]] + s[1..];
    }
  }

  /** The filter of a non-empty sequence, one step unfolded. */
  lemma FilterCons<T>(keep: T -> bool, s: seq<T>)
    requires |s| > 0
    ensures Filter(keep, s) == if keep(s[0]) then [s[0]] + Filter(keep, s[1..]) else Filter(keep, s[1..])
  {
  }

  /** Filtering distributes over concatenation. */
  lemma {:induction false} FilterAppend<T(!new)>(keep: T -> bool, a: seq<T>, b: seq<T>)
    ensures Filter(keep, a + b) == Filter(keep, a) + Filter(keep, b)
  {
    if |a| > 0 {
      FilterAppend(keep, a[1..], b);
      assert (a + b)[1..] == a[1..] + b;
    } else {
      assert a + b == b;
    }
  }

  /** A filter that keeps everything returns its input. */
  lemma {:induction false} FilterKeepsAll<T>(keep: T -> bool, s: seq<T>)
    requires forall i :: 0 <= i < |s| ==> keep(s[i])
    ensures Filter(keep, s) == s
  {
    if |s| > 0 {
      FilterKeepsAll(keep, s[1..]);
      assert s == [s[0]] + s[1..];
    }
  }

  /** Total length of the pieces `f` gives for the elements of `xs`. */
  function SumLengths<A, B>(f: A -> seq<B>, xs: seq<A>): nat
  {
    if |xs| == 0 then 0 else SumLengths(f, xs[..|xs| - 1]) + |f(xs[|xs| - 1])|
  }

  /** `xs.flatMap(f)`: the pieces of the elements, one after the other. */
  function FlatMap<A, B>(f: A -> seq<B>, xs: seq<A>): (r: seq<B>)
    ensures |r| == SumLengths(f, xs)
    decreases |xs|
  {
    if |xs| == 0 then [] else FlatMap(f, xs[..|xs| - 1]) + f(xs[|xs| - 1])
  }

  /** The piece of `xs[k]` starts after the pieces of the `k` elements
      before it. */
  lemma {:induction false} FlatMapAt<A, B>(f: A -> seq<B>, xs: seq<A>, k: nat, j: nat)
    requires k < |xs| && j < |f(xs[k])|
    ensures SumLengths(f, xs[..k]) + j < |FlatMap(f, xs)|
    ensures FlatMap(f, xs)[SumLengths(f, xs[..k]) + j] == f(xs[k])[j]
    decreases |xs|
  {
    var n := |xs| - 1;
    if k < n {
      FlatMapAt(f, xs[..n], k, j);
      assert xs[..n][..k] == xs[..k] && xs[..n][k] == xs[k];
    } else {
      assert xs[..k] == xs[..n];
    }
  }

  /** `s.slice(0, n)`. */
  function Take<T>(s: seq<T>, n: nat): (r: seq<T>)
    ensures |r| <= n && |r| <= |s|
    ensures |s| >= n ==> |r| == n
    ensures r == s[..|r|]
  {
    if |s| <= n then s else s[..n]
  }
}

=== FILE: sorting.dfy ===
/** The model of `Array.prototype.sort(compareFn)`: a stable insertion sort
    used as the reference sort. For a comparator that orders the elements
    consistently, every stable sort — the engine's included — returns this
    same sequence; the engine's own algorithm is not modelled. A comparator
    result `<= 0` lets its first argument stay in front of the second. */
module Sorting {

  /** Any two elements of `s` can be put in some order. */
  ghost predicate Connex<T(!new)>(cmp: (T, T) -> int, s: seq<T>) {
    forall x, y :: x in s && y in s ==> cmp(x, y) <= 0 || cmp(y, x) <= 0
  }

  /** "May precede" is transitive over the elements of `s`. */
  ghost predicate Transitive<T(!new)>(cmp: (T, T) -> int, s: seq<T>) {
    forall x, y, z :: x in s && y in s && z in s && cmp(x, y) <= 0 && cmp(y, z) <= 0 ==> cmp(x, z) <= 0
  }

  /** Each element may precede its successor. */
  ghost predicate Chained<T>(cmp: (T, T) -> int, s: seq<T>) {
    forall i :: 0 <= i < |s| - 1 ==> cmp(s[i], s[i + 1]) <= 0
  }

  /** Each element may precede every later one. */
  ghost predicate Sorted<T>(cmp: (T, T) -> int, s: seq<T>) {
    forall i, j :: 0 <= i < j < |s| ==> cmp(s[i], s[j]) <= 0
  }

  /** Puts `x` in front of the first element it may precede. */
  function Insert<T(!new)>(cmp: (T, T) -> int, x: T, s: seq<T>): (r: seq<T>)
    ensures multiset(r) == multiset(s) + multiset{x}
    ensures |r| == |s| + 1
    ensures r[0] == x || (|s| > 0 && r[0] == s[0])
  {
    if |s| == 0 then [x]
    else if cmp(x, s[0]) <= 0 then [x] + s
    else
      assert s == [s[0]] + s[1..];
      [s[0]] + Insert(cmp, x, s[1..])
  }

  /** Inserting an element comparable with every element of a chained
      sequence keeps it chained. */
  lemma {:induction false} InsertChained<T(!new)>(cmp: (T, T) -> int, x: T, s: seq<T>)
    requires Chained(cmp, s)
    requires forall i :: 0 <= i < |s| ==> cmp(x, s[i]) <= 0 || cmp(s[i], x) <= 0
    ensures Chained(cmp, Insert(cmp, x, s))
  {
    if |s| > 0 && cmp(x, s[0]) > 0 {
      var t := s[1..];
      assert forall i :: 0 <= i < |t| ==> t[i] == s[i + 1];
      InsertChained(cmp, x, t);
      var rest := Insert(cmp, x, t);
      assert Insert(cmp, x, s) == [s[0]] + rest;
      assert cmp(s[0], rest[0]) <= 0;
    }
  }

  /** The rows of `s` rearranged by `cmp`, equal elements keeping their
      relative order. */
  function SortBy<T(!new)>(cmp: (T, T) -> int, s: seq<T>): (r: seq<T>)
    ensures multiset(r) == multiset(s)
    ensures |r| == |s|
  {
    if |s| == 0 then []
    else
      assert s == [s[0]] + s[1..];
      Insert(cmp, s[0], SortBy(cmp, s[1..]))
  }

  /** Insertion only consults the comparator on `x` against the elements
      of `s`, so two comparators agreeing there insert alike. */
  lemma {:induction false} InsertAgrees<T(!new)>(c1: (T, T) -> int, c2: (T, T) -> int, x: T, s: seq<T>)
    requires forall i :: 0 <= i < |s| ==> c1(x, s[i]) == c2(x, s[i])
    ensures Insert(c1, x, s) == Insert(c2, x, s)
  {
    if |s| > 0 && c1(x, s[0]) > 0 {
      var t := s[1..];
      assert forall i :: 0 <= i < |t| ==> t[i] == s[i + 1];
      InsertAgrees(c1, c2, x, t);
    }
  }

  /** Two comparators that agree on the elements of `s` sort it alike. */
  lemma {:induction false} SortByAgrees<T(!new)>(c1: (T, T) -> int, c2: (T, T) -> int, s: seq<T>)
    requires forall a, b :: a in s && b in s ==> c1(a, b) == c2(a, b)
    ensures SortBy(c1, s) == SortBy(c2, s)
  {
    if |s| > 0 {
      var tail := s[1..];
      assert forall a :: a in tail ==> a in s;
      SortByAgrees(c1, c2, tail);
      var t := SortBy(c1, tail);
      forall i | 0 <= i < |t|
        ensures c1(s[0], t[i]) == c2(s[0], t[i])
      {
        assert t[i] in multiset(tail);
      }
      InsertAgrees(c1, c2, s[0], t);
    }
  }

  /** A comparator agreeing with a total, transitive one on the elements of
      `s` is itself total and transitive there. */
  lemma OrdersTransfer<T(!new)>(c1: (T, T) -> int, c2: (T, T) -> int, s: seq<T>)
    requires forall a, b :: a in s && b in s ==> c1(a, b) == c2(a, b)
    requires Connex(c2, s) && Transitive(c2, s)
    ensures Connex(c1, s) && Transitive(c1, s)
  {
  }

  /** When any two elements can be put in some order, each element of the
      sorted sequence may precede its successor. */
  lemma {:induction false} SortByChained<T(!new)>(cmp: (T, T) -> int, s: seq<T>)
    requires Connex(cmp, s)
    ensures Chained(cmp, SortBy(cmp, s))
  {
    if |s| > 0 {
      var t := s[1..];
      assert forall y :: y in t ==> y in s;
      SortByChained(cmp, t);
      var rest := SortBy(cmp, t);
      forall i | 0 <= i < |rest|
        ensures cmp(s[0], rest[i]) <= 0 || cmp(rest[i], s[0]) <= 0
      {
        assert rest[i] in multiset(t);
        assert rest[i] in t;
      }
      InsertChained(cmp, s[0], rest);
    }
  }

  /** Under a transitive order a chained sequence orders `s[i]` before
      `s[j]`. */
  lemma {:induction false} ChainedFrom<T(!new)>(cmp: (T, T) -> int, s: seq<T>, i: nat, j: nat)
    requires Chained(cmp, s) && Transitive(cmp, s)
    requires i < j < |s|
    ensures cmp(s[i], s[j]) <= 0
    decreases j - i
  {
    if j > i + 1 {
      ChainedFrom(cmp, s, i, j - 1);
      assert s[i] in s && s[j - 1] in s && s[j] in s;
    }
  }

  /** A chained sequence under a transitive order is sorted pairwise. */
  lemma ChainedIsSorted<T(!new)>(cmp: (T, T) -> int, s: seq<T>)
    requires Chained(cmp, s) && Transitive(cmp, s)
    ensures Sorted(cmp, s)
  {
    forall i, j | 0 <= i < j < |s|
      ensures cmp(s[i], s[j]) <= 0
    {
      ChainedFrom(cmp, s, i, j);
    }
  }

  /** A comparator that orders the elements of `s` consistently (a total
      preorder) sorts them into a pairwise ordered permutation. */
  lemma SortByIsSorted<T(!new)>(cmp: (T, T) -> int, s: seq<T>)
    requires Connex(cmp, s) && Transitive(cmp, s)
    ensures Sorted(cmp, SortBy(cmp, s))
  {
    var r := SortBy(cmp, s);
    forall x | x in r
      ensures x in s
    {
      assert x in multiset(r);
    }
    SortByChained(cmp, s);
    ChainedIsSorted(cmp, r);
  }
}

=== FILE: stats.dfy ===
/** The summary above the dashboard list: the number of certifications and
    how often each certification name occurs; and the filter panel's list
    of certification names to choose from. */
module Stats {
  import opened Records
  import Strings
  import Grouping

  /** The certification name of every row, in row order. */
  function CertNames(certs: seq<FlatCert>): (r: seq<string>)
    ensures |r| == |certs|
    ensures forall i :: 0 <= i < |certs| ==> r[i] == certs[i].certName
  {
    seq(|certs|, i requires 0 <= i < |certs| => certs[i].certName)
  }

  /** The names of a non-empty list: the first name, then the others. */
  lemma CertNamesCons(certs: seq<FlatCert>)
    requires |certs| > 0
    ensures CertNames(certs) == [certs[0].certName] + CertNames(certs[1..])
  {
  }

  /** `total` and `chartData`: one `{name, count}` per distinct name. */
  datatype Overview = Overview(total: nat, chart: seq<Grouping.Entry<string>>)

  /** The overview of `certs`: each name listed once, with the number of
      rows carrying it, and the counts adding up to the total. */
  function OverviewOf(certs: seq<FlatCert>): (o: Overview)
    ensures o.total == |certs|
    ensures forall i, j :: 0 <= i < j < |o.chart| ==> o.chart[i].key != o.chart[j].key
    ensures forall i :: 0 <= i < |o.chart| ==> o.chart[i].count == multiset(CertNames(certs))[o.chart[i].key]
    ensures Grouping.Total(o.chart) == o.total
  {
    var names := CertNames(certs);
    var chart := Grouping.TallyOf(names);
    Grouping.TallyKeys(names);
    Grouping.TallyTotal(names);
    Overview(|certs|, chart)
  }

  /** Every row's name has an entry in the chart. */
  lemma OverviewCovers(certs: seq<FlatCert>)
    ensures var chart := OverviewOf(certs).chart;
            forall i :: 0 <= i < |certs| ==> exists k :: 0 <= k < |chart| && chart[k].key == certs[i].certName
  {
    var names := CertNames(certs);
    var chart := OverviewOf(certs).chart;
    var d := Grouping.Dedup(names);
    forall i | 0 <= i < |certs|
      ensures exists k :: 0 <= k < |chart| && chart[k].key == certs[i].certName
    {
      assert names[i] in names;
      var k :| 0 <= k < |d| && d[k] == names[i];
      assert chart[k].key == names[i];
    }
  }

  /** Every entry of the chart is the name of some row. */
  lemma OverviewKeysOccur(certs: seq<FlatCert>)
    ensures var chart := OverviewOf(certs).chart;
            forall k :: 0 <= k < |chart| ==> exists i :: 0 <= i < |certs| && certs[i].certName == chart[k].key
  {
    var names := CertNames(certs);
    var chart := OverviewOf(certs).chart;
    var d := Grouping.Dedup(names);
    forall k | 0 <= k < |chart|
      ensures exists i :: 0 <= i < |certs| && certs[i].certName == chart[k].key
    {
      assert d[k] in d;
      var i :| 0 <= i < |names| && names[i] == d[k];
    }
  }

  /** `[...new Set(allCerts.map(c => c.certName))].sort()`: every name that
      occurs, once, in ascending order. */
  function PanelNames(certs: seq<FlatCert>): (r: seq<string>)
    ensures forall x :: x in r <==> x in CertNames(certs)
    ensures forall i, j :: 0 <= i < j < |r| ==> Strings.Less(r[i], r[j])
    ensures forall i, j :: 0 <= i < j < |r| ==> r[i] != r[j]
    ensures |r| <= |certs|
    ensures |certs| == 0 ==> r == []
  {
    var r := Grouping.DistinctSorted(CertNames(certs));
    forall i, j | 0 <= i < j < |r|
      ensures r[i] != r[j]
    {
      Strings.LessIrreflexive(r[i]);
    }
    r
  }
}

=== FILE: strings.dfy ===
/** The string operations of JavaScript that the tracker relies on, over
    `string == seq<char>`: `trim`, `split` on one character, `toLowerCase`,
    `includes`, `startsWith`, and the `<` comparison of two strings. */
module Strings {

  /** JavaScript's WhiteSpace and LineTerminator characters: the ones that
      `String.prototype.trim` removes. */
  predicate IsSpace(c: char) {
    || c == ' ' || c == '\t' || c == '\n' || c == '\r'
    || c == '\U{000B}' || c == '\U{000C}' || c == '\U{00A0}' || c == '\U{FEFF}'
    || c == '\U{1680}' || ('\U{2000}' <= c <= '\U{200A}')
    || c == '\U{2028}' || c == '\U{2029}' || c == '\U{202F}' || c == '\U{205F}'
    || c == '\U{3000}'
  }

  /** `s.trimStart()`: drops the leading white space and nothing else. */
  function TrimStart(s: string): (r: string)
    ensures |r| <= |s| && r == s[|s| - |r|..]
    ensures forall k :: 0 <= k < |s| - |r| ==> IsSpace(s[k])
    ensures |r| == 0 || !IsSpace(r[0])
  {
    if |s| > 0 && IsSpace(s[0]) then TrimStart(s[1..]) else s
  }

  /** `s.trimEnd()`: drops the trailing white space and nothing else. */
  function TrimEnd(s: string): (r: string)
    ensures |r| <= |s| && r == s[..|r|]
    ensures forall k :: |r| <= k < |s| ==> IsSpace(s[k])
    ensures |r| == 0 || !IsSpace(r[|r| - 1])
  {
    if |s| > 0 && IsSpace(s[|s| - 1]) then TrimEnd(s[..|s| - 1]) else s
  }

  /** `r` is `s` with exactly the `i` leading and the `|s| - i - |r|`
      trailing characters removed, all of them white space. */
  predicate StrippedAt(s: string, r: string, i: int) {
    && 0 <= i <= |s| - |r| && r == s[i..i + |r|]
    && (forall k :: 0 <= k < i ==> IsSpace(s[k]))
    && (forall k :: i + |r| <= k < |s| ==> IsSpace(s[k]))
  }

  /** `s.trim()`: the slice of `s` left once only white space has been
      removed around it, neither starting nor ending with white space. */
  function Trim(s: string): (r: string)
    ensures exists i :: StrippedAt(s, r, i)
    ensures |r| == 0 || (!IsSpace(r[0]) && !IsSpace(r[|r| - 1]))
  {
    var t := TrimStart(s);
    var r := TrimEnd(t);
    TrimComposes(s, t, r);
    r
  }

  lemma TrimComposes(s: string, t: string, r: string)
    requires |t| <= |s| && t == s[|s| - |t|..]
    requires forall k :: 0 <= k < |s| - |t| ==> IsSpace(s[k])
    requires |t| == 0 || !IsSpace(t[0])
    requires |r| <= |t| && r == t[..|r|]
    requires forall k :: |r| <= k < |t| ==> IsSpace(t[k])
    requires |r| == 0 || !IsSpace(r[|r| - 1])
    ensures exists i :: StrippedAt(s, r, i)
    ensures |r| == 0 || (!IsSpace(r[0]) && !IsSpace(r[|r| - 1]))
  {
    var i := |s| - |t|;
    assert r == s[i..i + |r|];
    forall k | i + |r| <= k < |s|
      ensures IsSpace(s[k])
    {
      assert s[k] == t[k - i];
    }
    assert |r| == 0 || r[0] == t[0];
    assert StrippedAt(s, r, i);
  }

  /** Number of occurrences of `c` in `s`. */
  function Occurrences(s: string, c: char): nat
  {
    if |s| == 0 then 0 else (if s[0] == c then 1 else 0) + Occurrences(s[1..], c)
  }

  /** `s.split(sep)` for a one-character separator: the pieces between the
      separators, always at least one (an empty string splits into `[""]`). */
  function Split(s: string, sep: char): (r: seq<string>)
    ensures |r| == Occurrences(s, sep) + 1
    ensures forall p :: p in r ==> sep !in p
  {
    if |s| == 0 then [""]
    else
      var rest := Split(s[1..], sep);
      if s[0] == sep then [""] + rest
      else [[s[0]] + rest[0]] + rest[1..]
  }

  /** `pieces.join(sep)`. */
  function Join(pieces: seq<string>, sep: char): string
    requires |pieces| > 0
  {
    if |pieces| == 1 then pieces[0] else pieces[0] + [sep] + Join(pieces[1..], sep)
  }

  /** Splitting and re-joining gives back the original text. */
  lemma {:induction false} JoinSplit(s: string, sep: char)
    ensures Join(Split(s, sep), sep) == s
  {
    if |s| > 0 {
      var rest := Split(s[1..], sep);
      JoinSplit(s[1..], sep);
      if s[0] != sep {
        var r := Split(s, sep);
        assert r == [[s[0]] + rest[0]] + rest[1..];
        if |rest| == 1 {
          assert Join(r, sep) == [s[0]] + rest[0];
        } else {
          assert r[1..] == rest[1..];
          assert Join(r, sep) == [s[0]] + (rest[0] + [sep] + Join(rest[1..], sep));
        }
      } else {
        assert Split(s, sep)[1..] == rest;
      }
    }
  }

  /** Joining separator-free pieces and splitting again gives the pieces back. */
  lemma {:induction false} SplitJoin(pieces: seq<string>, sep: char)
    requires |pieces| > 0
    requires forall p :: p in pieces ==> sep !in p
    ensures Split(Join(pieces, sep), sep) == pieces
  {
    if |pieces| == 1 {
      SplitPlain(pieces[0], sep);
    } else {
      var tail := Join(pieces[1..], sep);
      SplitJoin(pieces[1..], sep);
      SplitAfterPlain(pieces[0], tail, sep);
      assert pieces == [pieces[0]] + pieces[1..];
    }
  }

  lemma {:induction false} SplitPlain(p: string, sep: char)
    requires sep !in p
    ensures Split(p, sep) == [p]
  {
    if |p| > 0 {
      SplitPlain(p[1..], sep);
      assert [p[0]] + p[1..] == p;
    }
  }

  lemma {:induction false} SplitAfterPlain(p: string, t: string, sep: char)
    requires sep !in p
    ensures Split(p + [sep] + t, sep) == [p] + Split(t, sep)
  {
    if |p| == 0 {
      assert p + [sep] + t == [sep] + t;
      assert ([sep] + t)[1..] == t;
    } else {
      SplitAfterPlain(p[1..], t, sep);
      assert (p + [sep] + t)[1..] == p[1..] + [sep] + t;
      assert [p[0]] + p[1..] == p;
    }
  }

  /** `String.prototype.toLowerCase` on one character, for the Basic Latin
      and Latin-1 letters. */
  function LowerChar(c: char): (r: char)
    ensures 'A' <= c <= 'Z' ==> 'a' <= r <= 'z'
    ensures !('A' <= c <= 'Z') && !('\U{00C0}' <= c <= '\U{00DE}') ==> r == c
  {
    if 'A' <= c <= 'Z' || ('\U{00C0}' <= c <= '\U{00DE}' && c != '\U{00D7}')
    then (c as int + 32) as char
    else c
  }

  function ToLower(s: string): (r: string)
    ensures |r| == |s|
    ensures forall k :: 0 <= k < |s| ==> r[k] == LowerChar(s[k])
  {
    seq(|s|, k requires 0 <= k < |s| => LowerChar(s[k]))
  }

  /** Lower-casing twice is lower-casing once. */
  lemma ToLowerIdempotent(s: string)
    ensures ToLower(ToLower(s)) == ToLower(s)
  {
    assert forall k :: 0 <= k < |s| ==> LowerChar(LowerChar(s[k])) == LowerChar(s[k]);
  }

  /** `needle` occurs as a contiguous piece of `hay` at position `i`. */
  predicate OccursAt(hay: string, needle: string, i: int) {
    0 <= i && i + |needle| <= |hay| && hay[i..i + |needle|] == needle
  }

  /** `hay.includes(needle)`, searching left to right. */
  function Includes(hay: string, needle: string): (r: bool)
    ensures r <==> exists i :: OccursAt(hay, needle, i)
    decreases |hay|
  {
    if |needle| <= |hay| && hay[..|needle|] == needle then
      assert OccursAt(hay, needle, 0);
      true
    else if |needle| > |hay| || |hay| == 0 then
      false
    else
      var r := Includes(hay[1..], needle);
      assert r ==> exists i :: OccursAt(hay, needle, i) by {
        if r {
          var i :| OccursAt(hay[1..], needle, i);
          assert hay[1..][i..i + |needle|] == hay[i + 1..i + 1 + |needle|];
          assert OccursAt(hay, needle, i + 1);
        }
      }
      assert (exists i :: OccursAt(hay, needle, i)) ==> r by {
        if exists i :: OccursAt(hay, needle, i) {
          var i :| OccursAt(hay, needle, i);
          assert i != 0;
          assert hay[1..][i - 1..i - 1 + |needle|] == hay[i..i + |needle|];
          assert OccursAt(hay[1..], needle, i - 1);
        }
      }
      r
  }

  /** `s.startsWith(p)`. */
  predicate StartsWith(s: string, p: string) {
    |p| <= |s| && s[..|p|] == p
  }

  /** `a < b` on two JavaScript strings: lexicographic order, a proper
      prefix coming first. */
  predicate Less(a: string, b: string)
    decreases |a|
  {
    if |a| == 0 then |b| > 0
    else if |b| == 0 then false
    else if a[0] != b[0] then a[0] < b[0]
    else Less(a[1..], b[1..])
  }

  lemma {:induction false} LessIrreflexive(a: string)
    ensures !Less(a, a)
  {
    if |a| > 0 {
      LessIrreflexive(a[1..]);
    }
  }

  lemma {:induction false} LessAsymmetric(a: string, b: string)
    ensures !(Less(a, b) && Less(b, a))
  {
    if |a| > 0 && |b| > 0 && a[0] == b[0] {
      LessAsymmetric(a[1..], b[1..]);
    }
  }

  lemma {:induction false} LessTransitive(a: string, b: string, c: string)
    requires Less(a, b) && Less(b, c)
    ensures Less(a, c)
  {
    if |a| > 0 && a[0] == b[0] && b[0] == c[0] {
      LessTransitive(a[1..], b[1..], c[1..]);
    }
  }

  /** Any two strings are equal or ordered one way or the other. */
  lemma {:induction false} LessTotal(a: string, b: string)
    ensures a == b || Less(a, b) || Less(b, a)
  {
    if |a| > 0 && |b| > 0 && a[0] == b[0] {
      LessTotal(a[1..], b[1..]);
      if a[1..] == b[1..] {
        assert a == [a[0]] + a[1..] && b == [b[0]] + b[1..];
      }
    }
  }
}

=== FILE: sync.dfy ===
/** The cache refresh pass (`POST /api/refresh-cache`): every cached user's
    certifications are replaced by what the external credential service
    returns for them. The service is the `fetch` parameter, `None` standing
    for every failure it can have (network error, a status other than
    success, a payload that does not parse). */
module Sync {
  import opened Wrappers
  import opened Records
  import Cache

  /** One certification as the external service reports it; `None` stands
      for a missing property. */
  datatype ExternalCert = ExternalCert(
    typeName: Option<string>,
    date: Option<string>,
    certType: Option<map<string, string>>)

  /** One credential record of the service; `records` is `None` when the
      record has no `RelatedCertificationStatus.records`. */
  datatype ApiRecord = ApiRecord(records: Option<seq<ExternalCert>>)

  /** The decoded answer of the service: its `data` array. */
  datatype FetchResult = FetchResult(data: seq<ApiRecord>)

  /** The certification record stored for one external certification. */
  function ToCertRecord(x: ExternalCert): (c: CertRecord)
    ensures c.provider == "Salesforce" && c.status == "active" && c.expiresAt == None
    ensures x.typeName.Some? ==> c.name == x.typeName.value
    ensures x.typeName.None? ==> c.name == ""
    ensures x.date.Some? ==> c.earnedAt == x.date.value
    ensures x.date.None? ==> c.earnedAt == ""
    ensures x.certType.None? ==> c.meta == map[]
    ensures x.certType.Some? ==> c.meta == x.certType.value
  {
    CertRecord("Salesforce", x.typeName.GetOr(""), x.date.GetOr(""), None, "active", x.certType.GetOr(map[]))
  }

  /** `mapCerts`: one certification record per external record, in order. */
  function MapCerts(rec: ApiRecord): (r: seq<CertRecord>)
    ensures rec.records.None? ==> r == []
    ensures rec.records.Some? ==> |r| == |rec.records.value|
    ensures rec.records.Some? ==>
              forall i :: 0 <= i < |r| ==> r[i] == ToCertRecord(rec.records.value[i])
  {
    match rec.records
    case None => []
    case Some(xs) => seq(|xs|, i requires 0 <= i < |xs| => ToCertRecord(xs[i]))
  }

  /** The certifications a user gets from one fetch: those of the first
      data record, or none at all when the fetch failed or returned no
      data. */
  function FetchedCerts(fetch: (string, string) -> Option<FetchResult>, u: UserProfile): (r: seq<CertRecord>)
    ensures fetch(u.searchString, u.role).None? ==> r == []
    ensures fetch(u.searchString, u.role).Some? && |fetch(u.searchString, u.role).value.data| == 0 ==> r == []
    ensures fetch(u.searchString, u.role).Some? && |fetch(u.searchString, u.role).value.data| > 0 ==>
              r == MapCerts(fetch(u.searchString, u.role).value.data[0])
  {
    match fetch(u.searchString, u.role)
    case Some(res) => if |res.data| > 0 then MapCerts(res.data[0]) else []
    case None => []
  }

  /** One refreshed profile: everything of `u` but its certifications and
      its time stamp. */
  function RefreshUser(fetch: (string, string) -> Option<FetchResult>, now: string, u: UserProfile): (v: UserProfile)
    ensures v.email == u.email && v.role == u.role && v.searchString == u.searchString && v.extra == u.extra
    ensures v.certifications == FetchedCerts(fetch, u)
    ensures v.lastUpdated == Some(now)
  {
    u.(certifications := FetchedCerts(fetch, u), lastUpdated := Some(now))
  }

  /** The refresh pass over the whole cache, users in cache order. */
  function Refresh(fetch: (string, string) -> Option<FetchResult>, now: string, cache: seq<UserProfile>): (r: seq<UserProfile>)
    ensures |r| == |cache|
    ensures forall i :: 0 <= i < |cache| ==>
              && r[i].email == cache[i].email && r[i].role == cache[i].role
              && r[i].searchString == cache[i].searchString && r[i].extra == cache[i].extra
              && r[i].lastUpdated == Some(now)
              && r[i].certifications == FetchedCerts(fetch, cache[i])
  {
    seq(|cache|, i requires 0 <= i < |cache| => RefreshUser(fetch, now, cache[i]))
  }

  /** A user whose fetch fails ends up with no certifications. */
  lemma FailedFetchClears(fetch: (string, string) -> Option<FetchResult>, now: string, cache: seq<UserProfile>, i: nat)
    requires i < |cache| && fetch(cache[i].searchString, cache[i].role).None?
    ensures Refresh(fetch, now, cache)[i].certifications == []
  {
  }

  /** The refresh keeps the cached emails, in order, and their uniqueness. */
  lemma RefreshKeepsUsers(fetch: (string, string) -> Option<FetchResult>, now: string, cache: seq<UserProfile>)
    ensures Cache.Emails(Refresh(fetch, now, cache)) == Cache.Emails(cache)
    ensures Cache.UniqueEmails(cache) ==> Cache.UniqueEmails(Refresh(fetch, now, cache))
  {
  }

  /** Refreshing twice with the same service answers and the same clock
      reading gives what refreshing once gives: a refresh reads only the
      fields it does not write. */
  lemma RefreshIdempotent(fetch: (string, string) -> Option<FetchResult>, now: string, cache: seq<UserProfile>)
    ensures Refresh(fetch, now, Refresh(fetch, now, cache)) == Refresh(fetch, now, cache)
  {
  }
}

=== FILE: usertable.dfy ===
/** The certification table under the dashboard: sorting by a clicked
    column, with "N/A" cells kept at the bottom in both directions and the
    date column compared as dates. */
module UserTable {
  import opened Wrappers
  import opened Records
  import opened Ordering
  import Strings
  import Sorting

  /** `cert[key]` on a flat row. */
  function Field(c: FlatCert, key: string): (v: Value)
    ensures v.Num? == false
    ensures key in {"email", "name", "city", "state", "country", "certName", "certDate"} ==> v.Str?
  {
    match key
    case "email" => Str(c.email)
    case "name" => Str(c.name)
    case "city" => Str(c.city)
    case "state" => Str(c.state)
    case "country" => Str(c.country)
    case "certName" => Str(c.certName)
    case "certDate" => Str(c.certDate)
    case "userId" => if c.userId.Some? then Str(c.userId.value) else Undefined
    case "role" => if c.role.Some? then Str(c.role.value) else Undefined
    case _ => Undefined
  }

  /** The time value of `new Date(v)`, `None` for NaN. */
  function TimeValue(cal: Calendar, v: Value): Option<int>
  {
    match v
    case Str(s) => TimeOf(cal, s)
    case Num(n) => Some(n)
    case Undefined => None
  }

  /** The table's comparator for column `key`. */
  function TableCompare(cal: Calendar, key: string, ascending: bool, a: Value, b: Value): int
  {
    if a == Str(NA) || b == Str(NA) then
      if a == Str(NA) && b != Str(NA) then 1
      else if a != Str(NA) && b == Str(NA) then -1
      else 0
    else if key == "certDate" then
      var ta, tb := TimeValue(cal, a), TimeValue(cal, b);
      if ta.Some? && tb.Some? && ta.value < tb.value then (if ascending then -1 else 1)
      else if ta.Some? && tb.Some? && ta.value > tb.value then (if ascending then 1 else -1)
      else 0
    else if a.Str? && b.Str? then
      if Strings.Less(a.s, b.s) then (if ascending then -1 else 1)
      else if Strings.Less(b.s, a.s) then (if ascending then 1 else -1)
      else 0
    else 0
  }

  /** "N/A" goes after everything else in both directions and ties with
      itself; other values compare in reverse when descending; dates
      compare by time; values that are not strings tie. */
  lemma TableCompareFacts(cal: Calendar, key: string, ascending: bool, a: Value, b: Value)
    ensures a == Str(NA) && b != Str(NA) ==> TableCompare(cal, key, ascending, a, b) > 0
    ensures a == Str(NA) && b != Str(NA) ==> TableCompare(cal, key, ascending, b, a) < 0
    ensures a == Str(NA) && b == Str(NA) ==> TableCompare(cal, key, ascending, a, b) == 0
    ensures a != Str(NA) && b != Str(NA) ==>
              TableCompare(cal, key, false, a, b) == -TableCompare(cal, key, true, a, b)
    ensures key == "certDate" && a != Str(NA) && b != Str(NA) && TimeValue(cal, a).Some? && TimeValue(cal, b).Some? ==>
              (TableCompare(cal, key, true, a, b) < 0 <==> TimeValue(cal, a).value < TimeValue(cal, b).value)
    ensures key != "certDate" && a.Str? && b.Str? && a != Str(NA) && b != Str(NA) ==>
              (TableCompare(cal, key, true, a, b) < 0 <==> Strings.Less(a.s, b.s))
    ensures key != "certDate" && a != Str(NA) && b != Str(NA) && !(a.Str? && b.Str?) ==> TableCompare(cal, key, ascending, a, b) == 0
  {
    if a.Str? && b.Str? {
      Strings.LessAsymmetric(a.s, b.s);
    }
  }

  /** A cell the comparator can place: a string, and on the date column
      "N/A" or a readable date. */
  predicate Placeable(cal: Calendar, key: string, v: Value) {
    v.Str? && (key == "certDate" ==> v == Str(NA) || TimeValue(cal, v).Some?)
  }

  /** On placeable cells the comparator is a total preorder in either
      direction. */
  lemma TablePreorder(cal: Calendar, key: string, ascending: bool, a: Value, b: Value, c: Value)
    requires Placeable(cal, key, a) && Placeable(cal, key, b) && Placeable(cal, key, c)
    ensures TableCompare(cal, key, ascending, a, b) <= 0 || TableCompare(cal, key, ascending, b, a) <= 0
    ensures TableCompare(cal, key, ascending, a, b) <= 0 && TableCompare(cal, key, ascending, b, c) <= 0 ==>
              TableCompare(cal, key, ascending, a, c) <= 0
  {
    Strings.LessAsymmetric(a.s, b.s);
    Strings.LessTotal(a.s, b.s);
    Strings.LessAsymmetric(b.s, c.s);
    Strings.LessTotal(b.s, c.s);
    Strings.LessAsymmetric(a.s, c.s);
    Strings.LessTotal(a.s, c.s);
    if Strings.Less(a.s, b.s) && Strings.Less(b.s, c.s) {
      Strings.LessTransitive(a.s, b.s, c.s);
    }
    if Strings.Less(c.s, b.s) && Strings.Less(b.s, a.s) {
      Strings.LessTransitive(c.s, b.s, a.s);
    }
  }

  function RowCompare(cal: Calendar, key: string, ascending: bool): (FlatCert, FlatCert) -> int
  {
    (x: FlatCert, y: FlatCert) => TableCompare(cal, key, ascending, Field(x, key), Field(y, key))
  }

  /** `sortedCerts`: a sorted copy of the rows, or the rows as given when
      no column is chosen. */
  function SortedCerts(cal: Calendar, sort: SortConfig, certs: seq<FlatCert>): (r: seq<FlatCert>)
    ensures multiset(r) == multiset(certs)
    ensures sort.key.None? ==> r == certs
  {
    if sort.key.None? then certs
    else Sorting.SortBy(RowCompare(cal, sort.key.value, sort.ascending), certs)
  }

  /** With a column chosen whose cells are all placeable, the rows come out
      ordered by it, every "N/A" cell below every other cell. */
  lemma SortedCertsOrdered(cal: Calendar, sort: SortConfig, certs: seq<FlatCert>)
    requires sort.key.Some?
    requires forall c :: c in certs ==> Placeable(cal, sort.key.value, Field(c, sort.key.value))
    ensures Sorting.Sorted(RowCompare(cal, sort.key.value, sort.ascending), SortedCerts(cal, sort, certs))
    ensures var r := SortedCerts(cal, sort, certs);
            forall i, j :: 0 <= i < j < |r| && Field(r[i], sort.key.value) == Str(NA) ==>
              Field(r[j], sort.key.value) == Str(NA)
  {
    var key := sort.key.value;
    var cmp := RowCompare(cal, key, sort.ascending);
    forall x, y, z | x in certs && y in certs && z in certs
      ensures cmp(x, y) <= 0 || cmp(y, x) <= 0
      ensures cmp(x, y) <= 0 && cmp(y, z) <= 0 ==> cmp(x, z) <= 0
    {
      TablePreorder(cal, key, sort.ascending, Field(x, key), Field(y, key), Field(z, key));
    }
    Sorting.SortByIsSorted(cmp, certs);
    var r := SortedCerts(cal, sort, certs);
    forall i, j | 0 <= i < j < |r| && Field(r[i], key) == Str(NA)
      ensures Field(r[j], key) == Str(NA)
    {
      assert cmp(r[i], r[j]) <= 0;
      TableCompareFacts(cal, key, sort.ascending, Field(r[i], key), Field(r[j], key));
    }
  }
}

=== FILE: wrappers.dfy ===
/** Option and Result types used across the model. Absence of a value in the
    original program (`undefined`, `null`, a failed lookup) is an `Option`;
    an operation that rejects its input returns a `Result`. */
module Wrappers {

  datatype Option<+T> = None | Some(value: T) {

    /** The wrapped value, or `default` when there is none. */
    function GetOr(default: T): T {
      match this
      case Some(v) => v
      case None => default
    }
  }

  datatype Result<+R, +E> = Success(value: R) | Failure(error: E) {

    predicate IsFailure() {
      Failure?
    }
  }
}
